=== FILE: README.md ===
# Alumni backend: account and session lifecycle in Dafny

This project models the authentication core of the alumni portal backend
(an Express and MongoDB service). It covers:

- **Accounts** (`AuthService.Auth`): registration, activation by a mailed
  link, login, logout, refresh-token rotation, password change, and the
  password reset by a six-digit one-time code. The service's state is the
  user collection, the refresh-token collection (`TokenService.TokenStore`)
  and an outbox of the mails it asked to send. Every operation runs its
  checks in the source's order. The first failing check ends the call
  with that error kind, and the stores are left as they were.
- **The token service**: signing and verifying the access and refresh JSON
  web tokens over an abstract signer, and the refresh-token collection,
  which holds at most one token per user (`saveToken` is an upsert).
- **The user schema** (defaults, required fields, unique and immutable
  email, immutable `createdAt`) and the public projection `UserDto`, which
  never carries the password hash, the activation link or the reset code.
- **The middlewares**: bearer-token authentication, the admin gate, the
  body-field stripper and the error-to-response mapping with `ApiError`.
- **Helpers**: the pagination arithmetic, image URL construction, and the
  upload folder and file name of multer's disk storage.
- **The one-time code's way back**: how the reset route validates the
  submitted `code` and how `resetPassword` compares it (see Findings).

External pieces are parameters. bcrypt is a function `hash`, and
`compare(pw, h)` is `hash(pw) == h`. The JWT library is a pair of functions
`sign` and `verify`, and the predicate `TokenService.Sound` states what a
JWT library guarantees of them. `uuid.v4()` is the `link` or `uuid`
argument. The six `Math.random()` draws are a sequence of digits. The clock
is the issue time `now` of new tokens and the creation time `clock` of new
accounts. How the schema fills in `createdAt` is the service's
`createdAtDefault`: the program as written is `AtSchemaLoad` with the server's
start time (see Findings). Mongo's `findOne` returns the first match in the collection's
order, which is `Store.FirstIndex`.

`Scenarios` holds client runs that follow from the contracts:
registration, activation and login; a second login superseding the first
refresh token; a reset code that works once; and two registrations under
each `createdAt` default.

## Model

| member | source | states |
|---|---|---|
| Globals.ErrorTextInjective | src/types/global.ts:110-127 | distinct error kinds have distinct messages |
| Globals.FolderNameInjective | src/types/global.ts:103-108 | distinct image folders have distinct names |
| ApiErrors.Make | src/exeptions/api-error-exeption.ts:10-14 | the error keeps status, message and details exactly as given; details default to the empty list |
| ApiErrors.UnauthorizedError | src/exeptions/api-error-exeption.ts:16-18 | status 401, the `AUTH_ERROR` text, no details |
| ApiErrors.BadRequest | src/exeptions/api-error-exeption.ts:20-22 | status 400 with the given message and details, details defaulting to none |
| ApiErrors.Raise | src/exeptions/api-error-exeption.ts:16-22 | a kind the services throw (every kind but `VALIDATE_ERROR` and `UNEXPECTED_ERROR`) is raised with its own text and no details, as 401 for `AUTH_ERROR` and 400 for every other kind |
| ApiErrors.ValidationFailure | src/controllers/auth-controller.ts:13 | a request the validators refused is a 400 with the `VALIDATE_ERROR` text and the validator's failures as details |
| ErrorMiddleware.Handle | src/middlewares/error-middleware.ts:4-12 | an `ApiError` is answered with its own status, message and details; anything else with 500, `UNEXPECTED_ERROR` and the thrown value as the one detail |
| ErrorMiddleware.UnauthorizedIs401 | src/middlewares/error-middleware.ts:7-9 | an unauthorized error reaches the client as 401 with the `AUTH_ERROR` text |
| ErrorMiddleware.BadRequestIs400 | src/middlewares/error-middleware.ts:7-9 | a bad request reaches the client as 400 with its message and details |
| ErrorMiddleware.RaisedKindStatus | src/middlewares/error-middleware.ts:7-11 | every kind the services throw reaches the client as 401 or 400 with its own text, never as 500 and never with the `UNEXPECTED_ERROR` text that only a foreign exception gets |
| ErrorMiddleware.ValidationFailureIs400 | src/middlewares/error-middleware.ts:7-9 | a validation failure reaches the client as 400 with the `VALIDATE_ERROR` text and the failures, distinct from the 500 text |
| ErrorMiddleware.ResponseIdentifiesKind | src/middlewares/error-middleware.ts:7-9 | two kinds the services throw that are answered with the same response are the same kind |
| Words.Remove | src/helpers/file-uploader.ts:27 | the result has no occurrence of the character, its length drops by the number of occurrences, and every other character stays |
| Words.Split | src/middlewares/auth-middleware.ts:13 | JavaScript `split` on one character: one piece more than separators, and no piece holds the separator |
| Words.JoinSplit | src/middlewares/auth-middleware.ts:13 | joining the pieces with the separator gives back the string |
| Words.JoinSplitEmpty | src/helpers/file-uploader.ts:27 | `split(c).join('')` is exactly the removal of every `c` |
| ImageService.FileUrl | src/services/image-service.ts:32 | the URL is the folder prefix `API_URL/api/images/<folder>/` followed by the file name |
| ImageService.GetImageUrl | src/services/image-service.ts:23-33 | a name gives one URL, an array gives an array of the same length whose element i is the URL of input element i |
| ImageService.FileUrlInjective | src/services/image-service.ts:32 | two file names with the same URL in one folder are the same name |
| ImageService.EmptyArrayMapsToEmpty | src/services/image-service.ts:26-30 | the empty array maps to the empty array |
| FileUploader.FolderOfField | src/helpers/file-uploader.ts:8-20 | a field name equal to a folder's name yields that folder; any other yields none |
| FileUploader.Directory | src/helpers/file-uploader.ts:8-20 | the upload directory is the field name when it names a folder, the empty string otherwise |
| FileUploader.SanitizedName | src/helpers/file-uploader.ts:27 | the original name with every space removed: no space left, length minus the space count |
| FileUploader.StoredFilename | src/helpers/file-uploader.ts:24-28 | the stored name is field name, `-`, uuid, `-`, and the space-free original name |
| FileUploader.SanitizedNameIdempotent | src/helpers/file-uploader.ts:27 | sanitizing a sanitized name changes nothing |
| Pagination.PageNumber | src/helpers/pagination.ts:11 | the page when non-zero, 1 otherwise |
| Pagination.Skip | src/helpers/pagination.ts:12 | skip plus one page size is page number times page size, so each page starts where the previous one ends; with a positive page size the skip is non-negative exactly when the page number is at least 1 |
| Pagination.TotalPages | src/helpers/pagination.ts:16 | the ceiling of total over page size: the least page count covering every document |
| Pagination.Filter | src/helpers/pagination.ts:18 | exactly the documents matching the query, in store order: every result is a matching document and every matching document is kept; all of them when everything matches; a single document is kept iff it matches |
| Pagination.Window | src/helpers/pagination.ts:19-20 | element i is document `skip + i`; a full window of `limit` when enough documents follow, the rest of the documents on a partial last page, nothing past the end |
| Pagination.Paginate | src/helpers/pagination.ts:5-38 | fails with `Error paginating` exactly when the page number is below 1 (the store refuses a negative skip); otherwise total counts every document, totalPages is the ceiling of total over page size, current page and size are echoed, next page iff page < total pages, previous page iff page > 1, and the results are the window of the matching documents starting at the skip |
| Pagination.FilterConcat | src/helpers/pagination.ts:18 | filtering keeps store order: the matches of `a + b` are the matches of `a` followed by those of `b` |
| Pagination.InnerPagesAreFull | src/helpers/pagination.ts:12-23 | with the empty query, a page before the last is answered, reports a next page, and holds exactly a page of results, the documents from `skip` on |
| Pagination.PagesUpToTotalAreNonEmpty | src/helpers/pagination.ts:16-24 | with the empty query, every page from 1 up to the page count is answered and non-empty (under a narrower query the page count still counts every document, so later pages can be empty) |
| Store.FirstIndex | src/services/token-service.ts:37 | `findOne`: the first position whose element matches, none exactly when nothing matches |
| UserModel.EmptyProfile | src/models/user-model.ts:15-24 | every profile field defaults to null |
| UserModel.NewUser | src/models/user-model.ts:4-26 | a new record keeps the given fields and is not activated, not an administrator, has no reset code, no avatar and an empty allowed profile |
| UserModel.NewUserPassesSchema | src/models/user-model.ts:5-13 | the `required` fields (`RequiredPresent`): a new record passes exactly when email, password hash, name, surname and phone number are non-empty |
| UserModel.FindByEmail | src/services/auth-service.ts:40 | `findOne({ email })`: a position holding the email, none exactly when no record has it |
| UserModel.FindByLink | src/services/auth-service.ts:62 | `findOne({ activationLink })`: the first record holding the link, none exactly when no record has it |
| UserModel.FindById | src/services/auth-service.ts:118 | `findById`: a position holding the id, none exactly when no record has it |
| UserModel.FindByEmailFindsOwner | src/models/user-model.ts:5 | with unique emails, the lookup of a record's email finds that record |
| UserModel.EvolvesTransitive | src/models/user-model.ts:5-25 | no removal and unchanged id, email and `createdAt` carry over a chain of updates (used by `Scenarios.RegisterActivateLogin`) |
| UserDtos.Project | src/dtos/user-dto.ts:23-40 | id, email, names, role, phone, profile and `createdAt` copied; a null avatar stays null, any other becomes its avatar-folder URL |
| UserDtos.ProjectionHidesSecrets | src/dtos/user-dto.ts:5-21 | the projection does not depend on the password hash, the activation link, the reset code or the activation flag |
| UserDtos.ProjectionKeepsPublicFields | src/dtos/user-dto.ts:24-38 | records with the same projection agree on id, email, avatar and profile |
| TokenService.SignedTokensDiffer | src/services/token-service.ts:11-17 | a sound signer gives different tokens to different claims or different secrets |
| TokenService.GenerateTokens | src/services/token-service.ts:11-17 | the same claims signed with the access secret for 30 minutes and the refresh secret for 30 days |
| TokenService.ValidateAccessToken | src/services/token-service.ts:20-26 | verification under the access secret; a missing token is rejected, nothing is thrown |
| TokenService.ValidateRefreshToken | src/services/token-service.ts:28-34 | verification under the refresh secret; failure is a rejection, nothing is thrown |
| TokenService.GeneratedTokensValidate | src/services/token-service.ts:11-34 | each token of a pair verifies to the claims under its own validator and is rejected by the other |
| TokenService.FindByUser | src/services/token-service.ts:37 | `findOne({ user })`: the first record of the user, none exactly when the user has none |
| TokenService.FindByToken | src/services/token-service.ts:51 | `findOne({ refreshToken })`: the first record holding the token, none exactly when none holds it |
| TokenService.Upsert | src/services/token-service.ts:36-43 | one record per user is kept, the user's token becomes the new one, a record is added only for a user without one, and every other user keeps its token |
| TokenService.SavedTokenIsFound | src/services/token-service.ts:36-43 | after saving, looking the token up finds the user's record |
| TokenService.SupersededTokenIsGone | src/services/token-service.ts:37-41 | with distinct tokens, the user's previous token is no longer found after saving a new one |
| TokenService.RemoveAt | src/services/token-service.ts:46 | deleting one position keeps every other record in order |
| TokenService.RemoveFirst | src/services/token-service.ts:45-47 | `deleteOne`: an absent token changes nothing; otherwise one record goes, no record appears, every record with another token stays, and with distinct tokens the token is no longer found |
| TokenService.RemoveAtPreservesUniqueness | src/services/token-service.ts:46 | deleting a record keeps one record per user and distinct tokens |
| TokenService.IssuedTokensDistinct | src/services/token-service.ts:36-43 | when every record holds a token signed for its own user, one record per user means no two records share a token |
| TokenService.TokenStore.SaveToken | src/services/token-service.ts:36-43 | the collection becomes the upsert of the old one and the saved record is returned |
| TokenService.TokenStore.RemoveToken | src/services/token-service.ts:45-47 | the collection becomes the old one with the first holder of the token deleted |
| TokenService.TokenStore.FindToken | src/services/token-service.ts:50-52 | a record is found iff some record holds exactly the token, and it is that record |
| Otp.DigitsValueBounds | src/services/auth-service.ts:31-37 | n digits spell a number below 10^n, and below 10^(n-1) exactly when the first digit is 0 |
| Otp.ToDigitsOfValue | src/services/auth-service.ts:31-37 | the digits can be read back from the code, so different draws give different codes |
| Otp.GenerateOtp | src/services/auth-service.ts:31-37 | six rounds of `otp * 10 + d` give the number the draws spell, at most 999999, and below 100000 exactly when the first draw is 0 |
| OtpRedemption.Decimal | src/routes/routes.ts:178 | `String(n)`: decimal digits only, a leading `0` exactly for zero; `DecimalValue` reads the number back |
| OtpRedemption.DecimalValue | src/routes/routes.ts:178 | reading the decimal text back as digits gives the number |
| OtpRedemption.DecimalLength | src/routes/routes.ts:178 | the decimal text of n has at most k characters exactly when n < 10^k |
| OtpRedemption.DecimalSixDigits | src/routes/routes.ts:178 | a number's text has six characters exactly when it lies in 100000..999999 |
| OtpRedemption.NumericText | src/routes/routes.ts:178 | `isNumeric`: every non-empty text of decimal digits passes, and whatever passes ends in a digit |
| OtpRedemption.RouteAccepts | src/routes/routes.ts:178 | a JSON number passes exactly when it has six digits; six decimal digits of text pass |
| OtpRedemption.RedeemsAsWritten | src/services/auth-service.ts:194 | route check plus `!==`: only a stored code of six digits can be redeemed, and then exactly by that number sent as a JSON number |
| OtpRedemption.ShortCodeNeverRedeemed | src/routes/routes.ts:176-186 | as written, no request redeems a stored code below 100000 |
| OtpRedemption.LeadingZeroDrawIsLost | src/services/auth-service.ts:194 | as written, a draw starting with 0 yields a code nobody can redeem |
| OtpRedemption.DrawZeroToFiveIsLost | src/services/auth-service.ts:194 | the draw 0,1,2,3,4,5 stores 12345, which neither `12345` nor `"12345"` nor `"012345"` redeems |
| OtpRedemption.CodeValue | src/routes/routes.ts:178 | corrected: a number of at most six digits denotes itself; a text denotes a code exactly when it is one to six decimal digits, and then the number those digits spell; nothing else denotes a code |
| OtpRedemption.GeneratedCodeRedeemable | src/services/auth-service.ts:194 | corrected: every generated code is redeemed by its number, by the unpadded text the mail shows, and by its six digits zero-padded |
| OtpRedemption.CorrectionKeepsAcceptedRequests | src/routes/routes.ts:178 | corrected: every request that redeems a code as written still redeems it |
| AuthService.Auth.SessionFor | src/services/auth-service.ts:99-103 | the session carries the user's projection and the token pair signed for it at `now` |
| AuthService.ActivationUrl | src/services/auth-service.ts:52 | the mailed URL is the API URL, `/api/auth/activate/`, then the account's link |
| AuthService.ActivationUrlInjective | src/services/auth-service.ts:52 | different links are mailed as different URLs |
| AuthService.Auth.Registration | src/services/auth-service.ts:39-59 | an existing email fails with `AUTH_USER_EXIST`; for a new email, a missing required field fails schema validation (and only then does registration fail); both change nothing; success appends the new inactive record with the password's hash and the `createdAt` the schema default gives, mails the activation URL, upserts its refresh token and returns the `REGISTERED` text |
| AuthService.Auth.Activate | src/services/auth-service.ts:61-68 | an unknown link fails with `INVALID_ACTIVATION_LINK` and changes nothing; otherwise only the first holder's activation flag becomes true, the link stays, and activating again changes nothing |
| AuthService.Auth.Logout | src/services/auth-service.ts:70-80 | a missing or unknown token fails as unauthorized and changes nothing; otherwise the token's record is deleted |
| AuthService.Auth.Login | src/services/auth-service.ts:82-104 | `USER_NOT_FOUND`, then `EMAIL_IS_ACTIVATED` for an inactive account, then `INCORRECT_PASSWORD`, each changing nothing; success returns the session and overwrites the user's stored refresh token |
| AuthService.Auth.Refresh | src/services/auth-service.ts:106-129 | a missing token, a failed or string verification, a token not in the store or a vanished user fail as unauthorized and change nothing; success returns a new session and rotates the stored token |
| AuthService.Auth.ChangePassword | src/services/auth-service.ts:131-152 | `USER_NOT_FOUND`, then `INCORRECT_PASSWORD`, then `PASSWORD_ARE_NOT_EQUAL`, each changing nothing; success stores the new password's hash and nothing else |
| AuthService.Auth.SendOtpCode | src/services/auth-service.ts:154-163 | an unknown email fails with `USER_NOT_FOUND` and changes nothing; otherwise the generated code is mailed and stored as the reset code |
| AuthService.Auth.ReSendOtpCode | src/services/auth-service.ts:165-180 | `USER_NOT_FOUND`, then `OTP_DID_NOT_SEND` when no code is pending, each changing nothing; otherwise a new code replaces the old one and is mailed |
| AuthService.Auth.ResetPassword | src/services/auth-service.ts:182-205 | `USER_NOT_FOUND`, `OTP_DID_NOT_SEND`, `OTP_INCORRECT`, `PASSWORD_ARE_NOT_EQUAL` in that order, each changing nothing; success stores the new hash and clears the code |
| AuthMiddleware.BearerToken | src/middlewares/auth-middleware.ts:13 | the second space-separated word, present exactly when the header holds a space, and itself without spaces |
| AuthMiddleware.Authenticate | src/middlewares/auth-middleware.ts:8-21 | a missing header is refused; a request is admitted iff its bearer word verifies to an object payload, which it carries |
| AuthMiddleware.Run | src/middlewares/auth-middleware.ts:6-29 | the request proceeds iff authentication admits it, and then `req.user` is the verified payload; a refusal is the unauthorized error and leaves `req.user` alone |
| AuthMiddleware.BearerTokenIsSecondWord | src/middlewares/auth-middleware.ts:13 | in `<scheme> <token>...` the token is the word after the first space |
| AuthMiddleware.HeaderWithoutSpaceDenied | src/middlewares/auth-middleware.ts:14-21 | a header without a space yields no token and is refused by the verification step |
| AuthMiddleware.AccessTokenAdmitsRefreshTokenDoesNot | src/middlewares/auth-middleware.ts:18-25 | `Bearer <access token>` is admitted with the token's claims; the refresh token of the same pair is refused |
| RoleCheckMiddleware.RoleCheck | src/middlewares/role-check-middleware.ts:4-11 | the request proceeds iff the user is an administrator; otherwise a bad request with the `AUTH_PERMISSION_DENIED` text |
| RoleCheckMiddleware.DenialIsBadRequest | src/middlewares/role-check-middleware.ts:7-9 | a refused user is answered 400, not 401 or 403 |
| DeleteFieldsMiddleware.Stripped | src/middlewares/delete-fields-middleware.ts:4-7 | no password, createdAt, email or id key remains, and every other key keeps its value |
| DeleteFieldsMiddleware.StrippedIdempotent | src/middlewares/delete-fields-middleware.ts:3-9 | stripping twice is stripping once |
| DeleteFieldsMiddleware.Run | src/middlewares/delete-fields-middleware.ts:3-9 | the body becomes the stripped body, the rest of the request is untouched, and the request proceeds |
| Scenarios.RegisterActivateLogin | src/services/auth-service.ts:39-104 | a new account is refused login as not activated until its link is used, then logs in with its email; no record is lost and no immutable field changes on the way |
| Scenarios.LoginSupersedesEarlierToken | src/services/auth-service.ts:82-129 | after a second login at another time the first login's refresh token no longer refreshes |
| Scenarios.OtpCodeIsSingleUse | src/services/auth-service.ts:154-205 | a sent code resets the password once, the second use fails with `OTP_DID_NOT_SEND`, and an activated account logs in with the new password |
| Scenarios.RegistrationsShareCreatedAt | src/models/user-model.ts:25 | as written, two accounts registered at any two clock readings both store the schema's load time as `createdAt` |
| Scenarios.RegistrationsKeepCreationTimes | src/models/user-model.ts:25 | corrected, each of two registered accounts stores its own creation time, so different times give different `createdAt` |

## Left out

- bcrypt: the hash function and its cost factor 3 are the parameter `hash`; no property of bcrypt beyond `compare(pw, h) == (hash(pw) == h)` is used, and `NeverPlain` is an assumption a caller may add.
- JWT: signing, verification and the 30-minute and 30-day expiries are the abstract `Signer`; expiry checking needs a clock and is not modelled, so an expired token verifies like a fresh one.
- `uuid.v4()` and `Math.random()` are inputs (`link`, `uuid`, `digits`); the uniqueness of uuids is not assumed.
- The mail service is an outbox of records; a mail that fails to send (after the user was created, at registration) is not modelled.
- Mongoose persistence, `_id` allocation (a counter here), the unique index on email and the races between concurrent calls: the model is sequential and in memory.
- Schema validation on `save()` of an existing record is not modelled: updates only touch fields that cannot make a record invalid.
- The `education` and `specialty` enums are stated as `UserModel.ProfileAllowed`, which profile updates (not part of this model) would have to keep. The `length` options on the Number paths `resetCode` and `yearOfRelease` are not a Mongoose validator for numbers and have no effect, so they are not modelled.
- Controllers, routes, express-validator and the rate limiter are not modelled, except the reset route's code check used under Findings; the other validators' bounds are not preconditions of any method.
- The request validators and the controllers that call them are not part of this model; their one error, `VALIDATE_ERROR` with the validator's failures, is `ApiErrors.ValidationFailure`. `UNEXPECTED_ERROR` is never thrown by name: it appears only as the error middleware's 500 text (`ErrorMiddleware.Handle`).
- The news, vacancy and user services and controllers, `getImage` and `removeImage`, `main.ts`, the news and vacancy DTOs and models are not part of this model.
- The `catch` branch of `authMiddleware` is unreachable in the model, because every step is total.
- Pagination.Paginate: requires a positive page size; the source's behaviour for zero or negative sizes (division by zero, negative skip) is not modelled, and the store's `sort({ date: -1 })` order is taken as the order of `docs`.
- Pagination.PageNumber: JavaScript's `page || 1` also maps `NaN` to 1; only integers are modelled.
- AuthService.Auth.ResetPassword: receives the code as the number the request denotes (the corrected reading under Findings), not the raw JSON value compared with `!==`.

## Findings

| source | as written | input that shows it | evidently intended | confidence | as-written member | corrected member |
|---|---|---|---|---|---|---|
| src/models/user-model.ts:25 | the `createdAt` default `new Date().toISOString()` is evaluated once, when the schema is defined, so every account gets the server's start time | two registrations at different times after one server start get the same `createdAt` | each account's creation time | high (not executed) | Scenarios.RegistrationsShareCreatedAt | Scenarios.RegistrationsKeepCreationTimes |
| src/routes/routes.ts:178 | the reset route requires the code's text to be six characters and `resetPassword` compares it with `!==` to the stored number (src/services/auth-service.ts:194), so a code below 100000 (one draw in ten) can never be redeemed | draws 0,1,2,3,4,5 store and mail 12345; the number 12345 fails the length check and the string "012345" fails the strict comparison | every generated code is redeemable, compared as a number | high (not executed) | OtpRedemption.DrawZeroToFiveIsLost | OtpRedemption.GeneratedCodeRedeemable |

=== FILE: api_error.dfy ===
/**
 * `ApiError`: the one exception class the backend raises on purpose. It
 * carries an HTTP status, a message and a list of details (validation
 * failures or plain strings).
 */
module ApiErrors {
  import opened Globals

  /** One entry of `errors`: a plain string or an express-validator failure. */
  datatype ErrorDetail =
    | Text(text: string)
    | FieldError(field: string, msg: string)
    /** A thrown value that is not an `ApiError`, echoed as it is. */
    | Raw(description: string)

  datatype ApiError = ApiError(status: nat, message: string, errors: seq<ErrorDetail>)

  /** The constructor; `errors` defaults to the empty list when omitted. */
  function Make(status: nat, message: string, errors: seq<ErrorDetail> := []): (e: ApiError)
    ensures e.status == status && e.message == message && e.errors == errors
  {
    ApiError(status, message, errors)
  }

  /** `ApiError.UnauthorizedError()`. */
  function UnauthorizedError(): (e: ApiError)
    ensures e.status == 401 && e.message == ErrorText(AuthError) && e.errors == []
  {
    Make(401, ErrorText(AuthError))
  }

  /** `ApiError.BadRequest(message, errors = [])`. */
  function BadRequest(message: string, errors: seq<ErrorDetail> := []): (e: ApiError)
    ensures e.status == 400 && e.message == message && e.errors == errors
  {
    Make(400, message, errors)
  }

  /**
   * The kinds the services throw by name. `ValidateError` is thrown only by
   * the controllers, always with the validator's failures as details (see
   * `ValidationFailure`), and `UnexpectedError` is never thrown: it is the
   * error middleware's own text for a foreign exception.
   */
  predicate ServiceKind(kind: Errors)
  {
    kind != ValidateError && kind != UnexpectedError
  }

  /**
   * How the services raise an error kind: `AuthError` is only ever raised
   * through `UnauthorizedError()`, every other kind through `BadRequest`
   * with that kind's text and no details.
   */
  function Raise(kind: Errors): (e: ApiError)
    requires ServiceKind(kind)
    ensures e.message == ErrorText(kind) && e.errors == []
    ensures e.status == (if kind == AuthError then 401 else 400)
  {
    if kind == AuthError then UnauthorizedError() else BadRequest(ErrorText(kind))
  }

  /** `ApiError.BadRequest(Errors.VALIDATE_ERROR, errors.array())`: a request the validators refused. */
  function ValidationFailure(failures: seq<ErrorDetail>): (e: ApiError)
    ensures e.status == 400 && e.message == ErrorText(ValidateError) && e.errors == failures
  {
    BadRequest(ErrorText(ValidateError), failures)
  }
}

=== FILE: auth_middleware.dfy ===
/**
 * `authMiddleware`: admits a request only when its Authorization header
 * carries, as its second space-separated word, an access token that
 * verifies to an object payload; that payload becomes `req.user`.
 */
module AuthMiddleware {
  import opened Wrappers
  import opened Words
  import opened ApiErrors
  import opened TokenService
  import opened Http

  /**
   * `authorizationHeader.split(' ')[1]`: `None` (JavaScript `undefined`,
   * never `null`) when the header has no space.
   */
  function BearerToken(header: string): (t: Option<string>)
    ensures t.Some? <==> ' ' in header
    ensures t.Some? ==> ' ' !in t.value
  {
    var parts := Split(header, ' ');
    if |parts| > 1 then Some(parts[1]) else None
  }

  /** The decision: admit with the verified payload, or refuse. */
  datatype Decision = Grant(claims: Claims) | Deny

  function Authenticate(cfg: JwtConfig, header: Option<string>): (d: Decision)
    ensures header.None? ==> d == Deny
    ensures d.Grant? <==> header.Some? && ValidateAccessToken(cfg, BearerToken(header.value)).Payload?
    ensures d.Grant? ==> d.claims == ValidateAccessToken(cfg, BearerToken(header.value)).claims
  {
    match header
    case None => Deny
    case Some(h) =>
      match ValidateAccessToken(cfg, BearerToken(h))
      case Payload(c) => Grant(c)
      case _ => Deny
  }

  /**
   * The middleware itself: `next` is called once, with nothing on success
   * and with an unauthorized error otherwise; only a success writes
   * `req.user`. (The `catch` branch is unreachable here: every step is
   * total.)
   */
  method Run(req: Request, cfg: JwtConfig) returns (n: Next)
    modifies req
    ensures req.authorization == old(req.authorization) && req.body == old(req.body)
    ensures n == Proceed <==> Authenticate(cfg, req.authorization).Grant?
    ensures n.Abort? ==> n.error == UnauthorizedError() && req.user == old(req.user)
    ensures n == Proceed ==> req.user == Some(Authenticate(cfg, req.authorization).claims)
  {
    if req.authorization.None? {
      return Abort(UnauthorizedError());
    }
    var accessToken := BearerToken(req.authorization.value);
    var userData := ValidateAccessToken(cfg, accessToken);
    if !userData.Payload? {
      return Abort(UnauthorizedError());
    }
    req.user := Some(userData.claims);
    n := Proceed;
  }

  /** In `Bearer <token> ...` the token is the word after the first space. */
  lemma {:induction false} BearerTokenIsSecondWord(scheme: string, token: string, rest: string)
    requires ' ' !in scheme && ' ' !in token
    requires rest == [] || rest[0] == ' '
    ensures BearerToken(scheme + " " + token + rest) == Some(token)
  {
    var h := scheme + " " + token + rest;
    assert h == scheme + [' '] + (token + rest);
    SplitAfterWord(scheme, ' ', token + rest);
    SplitFirstPiece(token, ' ', rest);
  }

  /**
   * A header without a space yields no token; it is still refused, by the
   * failing verification rather than by the `=== null` test, which can
   * never hold.
   */
  lemma HeaderWithoutSpaceDenied(cfg: JwtConfig, header: string)
    requires ' ' !in header
    ensures BearerToken(header).None?
    ensures Authenticate(cfg, Some(header)) == Deny
  {
  }

  /**
   * A request carrying `Bearer <access token>` is admitted with the
   * token's claims; the refresh token of the same pair is refused.
   */
  lemma {:induction false} AccessTokenAdmitsRefreshTokenDoesNot(cfg: JwtConfig, claims: Claims)
    requires Sound(cfg.signer) && cfg.accessSecret != cfg.refreshSecret
    requires ' ' !in GenerateTokens(cfg, claims).accessToken
    requires ' ' !in GenerateTokens(cfg, claims).refreshToken
    ensures Authenticate(cfg, Some("Bearer " + GenerateTokens(cfg, claims).accessToken)) == Grant(claims)
    ensures Authenticate(cfg, Some("Bearer " + GenerateTokens(cfg, claims).refreshToken)) == Deny
  {
    var pair := GenerateTokens(cfg, claims);
    BearerTokenIsSecondWord("Bearer", pair.accessToken, "");
    assert "Bearer" + " " + pair.accessToken + "" == "Bearer " + pair.accessToken;
    BearerTokenIsSecondWord("Bearer", pair.refreshToken, "");
    assert "Bearer" + " " + pair.refreshToken + "" == "Bearer " + pair.refreshToken;
    GeneratedTokensValidate(cfg, claims);
  }
}

=== FILE: auth_service.dfy ===
/**
 * The account and session lifecycle: registration, activation, login,
 * logout, token refresh, password change and the one-time-code password
 * reset. Every operation runs its checks in a fixed order; the first that
 * fails ends the call with an error kind and leaves every store as it was.
 *
 * The user collection, the refresh-token collection and the mail outbox
 * are the service's state. bcrypt is the function `hash` (`compare(pw, h)`
 * is `hash(pw) == h`), the JWT library is `jwt`, `uuid.v4()` and
 * `Math.random()` are parameters, and the clock appears as the issue time
 * `now` of new tokens and the creation time `clock` of new accounts.
 */
module AuthService {
  import opened Wrappers
  import opened Globals
  import opened UserModel
  import opened UserDtos
  import opened TokenService
  import opened Otp

  /** A call either returns a value, raises an `ApiError` of the given kind, or is refused by the store's schema validation (answered as 500). */
  datatype Outcome<T> = Ok(value: T) | Err(kind: Errors) | SchemaViolation

  /** A mail handed to the mail service. */
  datatype Mail = ActivationMail(to: string, url: string) | OtpMail(to: string, code: nat)

  /** `{ ...tokens, user: userDto }`. */
  datatype Session = Session(user: UserDto, accessToken: string, refreshToken: string)

  const ActivationPath: string := "/api/auth/activate/"

  /** The link mailed at registration: the activation route of the API, then the account's link. */
  function ActivationUrl(apiUrl: string, link: string): (url: string)
    ensures |url| == |apiUrl| + |ActivationPath| + |link|
    ensures url[..|apiUrl| + |ActivationPath|] == apiUrl + ActivationPath
    ensures url[|apiUrl| + |ActivationPath|..] == link
  {
    apiUrl + ActivationPath + link
  }

  /** Different activation links are mailed as different URLs, so a mail names one account. */
  lemma ActivationUrlInjective(apiUrl: string, a: string, b: string)
    ensures ActivationUrl(apiUrl, a) == ActivationUrl(apiUrl, b) ==> a == b
  {
    if ActivationUrl(apiUrl, a) == ActivationUrl(apiUrl, b) {
      var n := |apiUrl| + |ActivationPath|;
      assert a == ActivationUrl(apiUrl, a)[n..];
    }
  }

  /** bcrypt never returns its input, so a stored hash is never the plaintext. */
  ghost predicate NeverPlain(hash: string -> string)
  {
    forall pw :: hash(pw) != pw
  }

  class Auth {
    var users: seq<UserRecord>
    /** The next `_id` the store hands out. */
    var nextId: nat
    var outbox: seq<Mail>
    const tokens: TokenStore
    const hash: string -> string
    const jwt: JwtConfig
    const apiUrl: string
    /** How the schema fills in `createdAt`. */
    const createdAtDefault: CreatedAtDefault

    ghost predicate Valid()
      reads this, tokens
    {
      && tokens.Valid()
      && UniqueEmails(users)
      && UniqueIds(users)
      && (forall i :: 0 <= i < |users| ==> users[i].id < nextId)
      && (forall x :: x in tokens.records ==> IssuedFor(jwt.signer, jwt.refreshSecret, x))
    }

    constructor (hash: string -> string, jwt: JwtConfig, apiUrl: string, createdAtDefault: CreatedAtDefault)
      ensures Valid() && fresh(tokens)
      ensures users == [] && outbox == [] && tokens.records == []
      ensures this.hash == hash && this.jwt == jwt && this.apiUrl == apiUrl
      ensures this.createdAtDefault == createdAtDefault
    {
      users := [];
      nextId := 0;
      outbox := [];
      tokens := new TokenStore();
      this.hash := hash;
      this.jwt := jwt;
      this.apiUrl := apiUrl;
      this.createdAtDefault := createdAtDefault;
    }

    /** `bcrypt.compare(password, hash)`. */
    function Compare(password: string, hashed: string): bool
    {
      hash(password) == hashed
    }

    /** The record `registration` asks the store to create. */
    function Candidate(email: string, password: string, name: string, surname: string,
                       phoneNumber: string, link: string, clock: string): UserRecord
      reads this
    {
      NewUser(nextId, email, hash(password), link, name, surname, phoneNumber,
              CreatedAtStamp(createdAtDefault, clock))
    }

    /** A fresh token pair for the snapshot of `u`, issued at `now`. */
    function SessionFor(u: UserRecord, now: nat): (s: Session)
      ensures s.user == Project(apiUrl, u)
      ensures s.accessToken == GenerateTokens(jwt, Claims(s.user, now)).accessToken
      ensures s.refreshToken == GenerateTokens(jwt, Claims(s.user, now)).refreshToken
    {
      var dto := Project(apiUrl, u);
      var pair := GenerateTokens(jwt, Claims(dto, now));
      Session(dto, pair.accessToken, pair.refreshToken)
    }

    method Registration(email: string, password: string, name: string, surname: string,
                        phoneNumber: string, link: string, now: nat, clock: string)
      returns (r: Outcome<string>)
      requires Valid()
      modifies this, tokens
      ensures Valid() && Evolves(old(users), users)
      ensures FindByEmail(old(users), email).Some? ==> r == Err(AuthUserExist)
      ensures FindByEmail(old(users), email).None? ==>
                (r.Ok? <==> RequiredPresent(old(Candidate(email, password, name, surname, phoneNumber, link, clock))))
      ensures FindByEmail(old(users), email).None? &&
              !RequiredPresent(old(Candidate(email, password, name, surname, phoneNumber, link, clock))) ==>
                r == SchemaViolation
      ensures !r.Ok? ==> r == Err(AuthUserExist) || r == SchemaViolation
      ensures !r.Ok? ==> unchanged(this, tokens)
      ensures r.Ok? ==> r.value == SuccessText(Registered)
      ensures r.Ok? ==>
                var u := old(Candidate(email, password, name, surname, phoneNumber, link, clock));
                && users == old(users) + [u]
                && u.password == hash(password) && !u.isActivated && u.resetCode.None?
                && outbox == old(outbox) + [ActivationMail(email, ActivationUrl(apiUrl, link))]
                && tokens.records == Upsert(old(tokens.records), u.id, SessionFor(u, now).refreshToken)
      ensures r.Ok? ==> users[|users| - 1].createdAt == CreatedAtStamp(createdAtDefault, clock)
      ensures r.Ok? && NeverPlain(hash) ==> users[|users| - 1].password != password
    {
      var candidate := FindByEmail(users, email);
      if candidate.Some? {
        return Err(AuthUserExist);
      }
      var user := Candidate(email, password, name, surname, phoneNumber, link, clock);
      if !RequiredPresent(user) {
        return SchemaViolation;
      }
      users := users + [user];
      nextId := nextId + 1;
      outbox := outbox + [ActivationMail(email, ActivationUrl(apiUrl, link))];
      var session := SessionFor(user, now);
      var _ := tokens.SaveToken(session.user.id, session.refreshToken);
      r := Ok(SuccessText(Registered));
    }

    method Activate(link: string) returns (r: Outcome<()>)
      requires Valid()
      modifies this
      ensures Valid() && Evolves(old(users), users)
      ensures unchanged(tokens) && outbox == old(outbox) && nextId == old(nextId)
      ensures FindByLink(old(users), link).None? ==> r == Err(InvalidActivationLink) && unchanged(this)
      ensures FindByLink(old(users), link).Some? ==>
                var i := FindByLink(old(users), link).value;
                r == Ok(()) && users == old(users)[i := old(users)[i].(isActivated := true)]
      // the link is kept, so activating again finds the same account and changes nothing more
      ensures FindByLink(users, link) == FindByLink(old(users), link)
      ensures r.Ok? && old(users)[FindByLink(old(users), link).value].isActivated ==> users == old(users)
    {
      var found := FindByLink(users, link);
      if found.None? {
        return Err(InvalidActivationLink);
      }
      var i := found.value;
      var before := users;
      users := users[i := users[i].(isActivated := true)];
      Store.FirstIndexSamePattern(users, before, (u: UserRecord) => u.activationLink == Some(link),
                                  (u: UserRecord) => u.activationLink == Some(link));
      r := Ok(());
    }

    method Logout(refreshToken: Option<string>) returns (r: Outcome<()>)
      requires Valid()
      modifies tokens
      ensures Valid()
      ensures refreshToken.None? ==> r == Err(AuthError)
      ensures refreshToken.Some? ==> (r.Ok? <==> old(tokens.FindToken(refreshToken.value)).Some?)
      ensures !r.Ok? ==> r == Err(AuthError) && unchanged(tokens)
      ensures r.Ok? ==> tokens.records == RemoveFirst(old(tokens.records), refreshToken.value)
    {
      if refreshToken.None? {
        return Err(AuthError);
      }
      var fromDb := tokens.FindToken(refreshToken.value);
      if fromDb.None? {
        return Err(AuthError);
      }
      tokens.RemoveToken(refreshToken.value);
      r := Ok(());
    }

    method Login(email: string, password: string, now: nat) returns (r: Outcome<Session>)
      requires Valid()
      modifies tokens
      ensures Valid()
      ensures FindByEmail(users, email).None? ==> r == Err(UserNotFound)
      ensures FindByEmail(users, email).Some? ==>
                var u := users[FindByEmail(users, email).value];
                && (!u.isActivated ==> r == Err(EmailIsActivated))
                && (u.isActivated && !Compare(password, u.password) ==> r == Err(IncorrectPassword))
                && (u.isActivated && Compare(password, u.password) ==>
                      r == Ok(SessionFor(u, now))
                      && tokens.records == Upsert(old(tokens.records), u.id, SessionFor(u, now).refreshToken))
      ensures !r.Ok? ==> unchanged(tokens)
    {
      var found := FindByEmail(users, email);
      if found.None? {
        return Err(UserNotFound);
      }
      var user := users[found.value];
      if !user.isActivated {
        return Err(EmailIsActivated);
      }
      var isPassEquals := Compare(password, user.password);
      if !isPassEquals {
        return Err(IncorrectPassword);
      }
      var session := SessionFor(user, now);
      var _ := tokens.SaveToken(session.user.id, session.refreshToken);
      r := Ok(session);
    }

    method Refresh(refreshToken: Option<string>, now: nat) returns (r: Outcome<Session>)
      requires Valid()
      modifies tokens
      ensures Valid()
      ensures refreshToken.None? ==> r == Err(AuthError)
      ensures refreshToken.Some? ==>
                var claims := ValidateRefreshToken(jwt, refreshToken.value);
                && (!claims.Payload? || old(tokens.FindToken(refreshToken.value)).None? ==> r == Err(AuthError))
                && (claims.Payload? && old(tokens.FindToken(refreshToken.value)).Some? ==>
                      var found := FindById(users, claims.claims.user.id);
                      && (found.None? ==> r == Err(AuthError))
                      && (found.Some? ==>
                            r == Ok(SessionFor(users[found.value], now))
                            && tokens.records == Upsert(old(tokens.records), users[found.value].id,
                                                        SessionFor(users[found.value], now).refreshToken)))
      ensures !r.Ok? ==> r == Err(AuthError) && unchanged(tokens)
    {
      if refreshToken.None? {
        return Err(AuthError);
      }
      var userData := ValidateRefreshToken(jwt, refreshToken.value);
      var fromDb := tokens.FindToken(refreshToken.value);
      if !userData.Payload? || fromDb.None? {
        return Err(AuthError);
      }
      var found := FindById(users, userData.claims.user.id);
      if found.None? {
        return Err(AuthError);
      }
      var session := SessionFor(users[found.value], now);
      var _ := tokens.SaveToken(session.user.id, session.refreshToken);
      r := Ok(session);
    }

    method ChangePassword(oldPassword: string, newPassword: string, confirmNewPassword: string, id: UserId)
      returns (r: Outcome<()>)
      requires Valid()
      modifies this
      ensures Valid() && Evolves(old(users), users)
      ensures unchanged(tokens) && outbox == old(outbox) && nextId == old(nextId)
      ensures FindById(old(users), id).None? ==> r == Err(UserNotFound)
      ensures FindById(old(users), id).Some? ==>
                var i := FindById(old(users), id).value;
                && (!Compare(oldPassword, old(users)[i].password) ==> r == Err(IncorrectPassword))
                && (Compare(oldPassword, old(users)[i].password) && newPassword != confirmNewPassword ==>
                      r == Err(PasswordAreNotEqual))
                && (r.Ok? ==> users == old(users)[i := old(users)[i].(password := hash(newPassword))])
      ensures r.Ok? <==> FindById(old(users), id).Some? && newPassword == confirmNewPassword
                         && Compare(oldPassword, old(users)[FindById(old(users), id).value].password)
      ensures !r.Ok? ==> unchanged(this)
    {
      var found := FindById(users, id);
      if found.None? {
        return Err(UserNotFound);
      }
      var i := found.value;
      var isPassEquals := Compare(oldPassword, users[i].password);
      if !isPassEquals {
        return Err(IncorrectPassword);
      }
      if newPassword != confirmNewPassword {
        return Err(PasswordAreNotEqual);
      }
      users := users[i := users[i].(password := hash(newPassword))];
      r := Ok(());
    }

    method SendOtpCode(email: string, digits: seq<nat>) returns (r: Outcome<()>)
      requires Valid()
      requires |digits| == 6 && AllDigits(digits)
      modifies this
      ensures Valid() && Evolves(old(users), users)
      ensures unchanged(tokens) && nextId == old(nextId)
      ensures r.Ok? <==> FindByEmail(old(users), email).Some?
      ensures !r.Ok? ==> r == Err(UserNotFound) && unchanged(this)
      ensures r.Ok? ==>
                var i := FindByEmail(old(users), email).value;
                && users == old(users)[i := old(users)[i].(resetCode := Some(DigitsValue(digits)))]
                && outbox == old(outbox) + [OtpMail(old(users)[i].email, DigitsValue(digits))]
    {
      var found := FindByEmail(users, email);
      if found.None? {
        return Err(UserNotFound);
      }
      var i := found.value;
      var code := GenerateOtp(digits);
      outbox := outbox + [OtpMail(users[i].email, code)];
      users := users[i := users[i].(resetCode := Some(code))];
      r := Ok(());
    }

    method ReSendOtpCode(email: string, digits: seq<nat>) returns (r: Outcome<()>)
      requires Valid()
      requires |digits| == 6 && AllDigits(digits)
      modifies this
      ensures Valid() && Evolves(old(users), users)
      ensures unchanged(tokens) && nextId == old(nextId)
      ensures FindByEmail(old(users), email).None? ==> r == Err(UserNotFound)
      ensures FindByEmail(old(users), email).Some? ==>
                old(users)[FindByEmail(old(users), email).value].resetCode.None? ==> r == Err(OtpDidNotSend)
      ensures r.Ok? <==> FindByEmail(old(users), email).Some? &&
                         old(users)[FindByEmail(old(users), email).value].resetCode.Some?
      ensures !r.Ok? ==> unchanged(this)
      ensures r.Ok? ==>
                var i := FindByEmail(old(users), email).value;
                && users == old(users)[i := old(users)[i].(resetCode := Some(DigitsValue(digits)))]
                && outbox == old(outbox) + [OtpMail(old(users)[i].email, DigitsValue(digits))]
    {
      var found := FindByEmail(users, email);
      if found.None? {
        return Err(UserNotFound);
      }
      var i := found.value;
      if users[i].resetCode.None? {
        return Err(OtpDidNotSend);
      }
      var code := GenerateOtp(digits);
      outbox := outbox + [OtpMail(users[i].email, code)];
      users := users[i := users[i].(resetCode := Some(code))];
      r := Ok(());
    }

    method ResetPassword(email: string, code: nat, newPassword: string, confirmNewPassword: string)
      returns (r: Outcome<()>)
      requires Valid()
      modifies this
      ensures Valid() && Evolves(old(users), users)
      ensures unchanged(tokens) && outbox == old(outbox) && nextId == old(nextId)
      ensures FindByEmail(old(users), email).None? ==> r == Err(UserNotFound)
      ensures FindByEmail(old(users), email).Some? ==>
                var u := old(users)[FindByEmail(old(users), email).value];
                && (u.resetCode.None? ==> r == Err(OtpDidNotSend))
                && (u.resetCode.Some? && u.resetCode.value != code ==> r == Err(OtpIncorrect))
                && (u.resetCode == Some(code) && newPassword != confirmNewPassword ==> r == Err(PasswordAreNotEqual))
      ensures r.Ok? <==> FindByEmail(old(users), email).Some? && newPassword == confirmNewPassword
                         && old(users)[FindByEmail(old(users), email).value].resetCode == Some(code)
      ensures !r.Ok? ==> unchanged(this)
      ensures r.Ok? ==>
                var i := FindByEmail(old(users), email).value;
                users == old(users)[i := old(users)[i].(password := hash(newPassword), resetCode := None)]
    {
      var found := FindByEmail(users, email);
      if found.None? {
        return Err(UserNotFound);
      }
      var i := found.value;
      if users[i].resetCode.None? {
        return Err(OtpDidNotSend);
      }
      if users[i].resetCode.value != code {
        return Err(OtpIncorrect);
      }
      if newPassword != confirmNewPassword {
        return Err(PasswordAreNotEqual);
      }
      users := users[i := users[i].(password := hash(newPassword), resetCode := None)];
      r := Ok(());
    }
  }
}

=== FILE: delete_fields_middleware.dfy ===
/**
 * `deleteFieldsMiddleware`: removes the keys a client may never set
 * through a profile update from the request body, then lets the request
 * through.
 */
module DeleteFieldsMiddleware {
  import opened Http

  const ProtectedKeys: set<string> := {"password", "createdAt", "email", "id"}

  /** The body with the protected keys deleted. */
  function Stripped(body: map<string, Json>): (r: map<string, Json>)
    ensures forall k :: k in ProtectedKeys ==> k !in r
    ensures forall k :: k !in ProtectedKeys ==> (k in r <==> k in body)
    ensures forall k :: k in r ==> r[k] == body[k]
  {
    body - ProtectedKeys
  }

  /** Deleting the keys a second time changes nothing. */
  lemma StrippedIdempotent(body: map<string, Json>)
    ensures Stripped(Stripped(body)) == Stripped(body)
  {
  }

  /** The four `delete req.body.<key>` statements, then `next()`. */
  method Run(req: Request) returns (n: Next)
    modifies req
    ensures n == Proceed
    ensures req.body == Stripped(old(req.body))
    ensures req.authorization == old(req.authorization) && req.user == old(req.user)
  {
    req.body := req.body - {"password"};
    req.body := req.body - {"createdAt"};
    req.body := req.body - {"email"};
    req.body := req.body - {"id"};
    n := Proceed;
  }
}

=== FILE: error_middleware.dfy ===
/**
 * The last express middleware: turns whatever was thrown into an HTTP
 * response. It always answers and never hands the error on.
 */
module ErrorMiddleware {
  import opened Globals
  import opened ApiErrors

  /** What reaches the middleware: an `ApiError`, or anything else. */
  datatype Thrown = Api(error: ApiError) | Other(description: string)

  /** The response: status code and JSON body `{message, errors}`. */
  datatype Response = Response(status: nat, message: string, errors: seq<ErrorDetail>)

  function Handle(err: Thrown): (r: Response)
    ensures err.Api? ==> r == Response(err.error.status, err.error.message, err.error.errors)
    ensures err.Other? ==> r.status == 500 && r.message == ErrorText(UnexpectedError)
    ensures err.Other? ==> r.errors == [Raw(err.description)]
  {
    match err
    case Api(e) => Response(e.status, e.message, e.errors)
    case Other(d) => Response(500, ErrorText(UnexpectedError), [Raw(d)])
  }

  /** An unauthorized error is answered with 401 and the `AuthError` text. */
  lemma UnauthorizedIs401()
    ensures Handle(Api(UnauthorizedError())) == Response(401, ErrorText(AuthError), [])
  {
  }

  /** A bad request is answered with 400, its message and its details. */
  lemma BadRequestIs400(message: string, errors: seq<ErrorDetail>)
    ensures Handle(Api(BadRequest(message, errors))) == Response(400, message, errors)
  {
  }

  /**
   * Every error kind the services raise reaches the client with its own
   * text, as 401 for `AuthError` and 400 for the rest; only a foreign
   * exception becomes a 500, and its text is never that of a raised kind.
   */
  lemma RaisedKindStatus(kind: Errors)
    requires ServiceKind(kind)
    ensures Handle(Api(Raise(kind))).status == (if kind == AuthError then 401 else 400)
    ensures Handle(Api(Raise(kind))).message == ErrorText(kind)
    ensures Handle(Api(Raise(kind))).status != 500
    ensures Handle(Api(Raise(kind))).message != ErrorText(UnexpectedError)
  {
    ErrorTextInjective(kind, UnexpectedError);
  }

  /** A refused request is answered 400 with the validation text and the validator's failures. */
  lemma ValidationFailureIs400(failures: seq<ErrorDetail>)
    ensures Handle(Api(ValidationFailure(failures))) == Response(400, ErrorText(ValidateError), failures)
    ensures Handle(Api(ValidationFailure(failures))).message != ErrorText(UnexpectedError)
  {
    ErrorTextInjective(ValidateError, UnexpectedError);
  }

  /**
   * The client can recover the error kind from the body alone: two kinds
   * that give the same response are the same kind.
   */
  lemma {:induction false} ResponseIdentifiesKind(a: Errors, b: Errors)
    requires ServiceKind(a) && ServiceKind(b)
    ensures Handle(Api(Raise(a))) == Handle(Api(Raise(b))) ==> a == b
  {
    if Handle(Api(Raise(a))) == Handle(Api(Raise(b))) {
      ErrorTextInjective(a, b);
    }
  }
}

=== FILE: file_uploader.dfy ===
/**
 * The multer disk-storage settings of the upload helper: which folder an
 * uploaded file goes to, chosen by its form field name, and the name it is
 * stored under. `uuid.v4()` is the parameter `uuid`.
 */
module FileUploader {
  import opened Globals
  import opened Wrappers
  import opened Words

  /** The folder named exactly `fieldname`, if any. */
  function FolderOfField(fieldname: string): (r: Option<ImageFolder>)
    ensures r.Some? ==> FolderName(r.value) == fieldname
    ensures r.None? ==> forall f: ImageFolder :: FolderName(f) != fieldname
  {
    if fieldname == FolderName(Avatars) then Some(Avatars)
    else if fieldname == FolderName(Posters) then Some(Posters)
    else if fieldname == FolderName(NewsImages) then Some(NewsImages)
    else if fieldname == FolderName(CompanyLogos) then Some(CompanyLogos)
    else None
  }

  /**
   * `directory()`: the subfolder of `images` for a field: the field name
   * itself when it names an image folder, otherwise the empty string (the
   * file then lands in `images` itself).
   */
  function Directory(fieldname: string): (dir: string)
    ensures (exists f: ImageFolder :: FolderName(f) == fieldname) ==> dir == fieldname
    ensures (forall f: ImageFolder :: FolderName(f) != fieldname) ==> dir == ""
  {
    match FolderOfField(fieldname)
    case Some(f) => FolderName(f)
    case None => ""
  }

  /** `file.originalname.split(' ').join('')`. */
  function SanitizedName(originalname: string): (r: string)
    ensures ' ' !in r
    ensures |r| == |originalname| - Count(originalname, ' ')
    ensures r == Remove(originalname, ' ')
  {
    JoinSplitEmpty(originalname, ' ');
    Join(Split(originalname, ' '), "")
  }

  /** The stored file name: `fieldname-uuid-originalname`, spaces of the original name removed. */
  function StoredFilename(fieldname: string, uuid: string, originalname: string): (r: string)
    ensures r == fieldname + "-" + uuid + "-" + Remove(originalname, ' ')
    ensures |r| == |fieldname| + |uuid| + 2 + |originalname| - Count(originalname, ' ')
  {
    fieldname + "-" + uuid + "-" + SanitizedName(originalname)
  }

  /** Sanitising a name that has no space leaves it as it is; so sanitising twice is sanitising once. */
  lemma {:induction false} RemoveWithoutOccurrence(s: string, c: char)
    requires c !in s
    ensures Remove(s, c) == s
  {
    if s != [] {
      assert s[0] != c;
      RemoveWithoutOccurrence(s[1..], c);
      assert [s[0]] + s[1..] == s;
    }
  }

  lemma SanitizedNameIdempotent(originalname: string)
    ensures SanitizedName(SanitizedName(originalname)) == SanitizedName(originalname)
  {
    RemoveWithoutOccurrence(SanitizedName(originalname), ' ');
  }
}

=== FILE: globals.dfy ===
/**
 * The enumerations shared by the whole backend: the error and success
 * messages and the image folders. Each enum member is a constructor and
 * its string value is given by a function, so that a response body can be
 * compared with the exact text the server sends.
 */
module Globals {

  /** The `Errors` enum. */
  datatype Errors =
    | ValidateError
    | AuthUserExist
    | AuthError
    | AuthPermissionDenied
    | UnexpectedError
    | InvalidActivationLink
    | UserNotFound
    | EmailIsActivated
    | IncorrectPassword
    | PasswordAreNotEqual
    | OtpIncorrect
    | OtpDidNotSend
    | NewsNotFound
    | VacancyNotFound
    | PosterRequired
    | LogoRequired

  /** The string value of each `Errors` member, as sent to clients. */
  function ErrorText(e: Errors): string
  {
    match e
    case ValidateError => "Validation error"
    case AuthUserExist => "User already exist"
    case AuthError => "User not authorized"
    case AuthPermissionDenied => "You are not a admin"
    case UnexpectedError => "Unexpected error"
    case InvalidActivationLink => "Invalid activation link"
    case UserNotFound => "User not found"
    case EmailIsActivated => "Email is not activated"
    case IncorrectPassword => "Incorrect password"
    case PasswordAreNotEqual => "New password and confirm new password are not equal"
    case OtpIncorrect => "Otp code are not correct"
    case OtpDidNotSend => "You did not send opt code, please send firstly"
    case NewsNotFound => "News not found"
    case VacancyNotFound => "Vacancy not found"
    case PosterRequired => "Poster required"
    case LogoRequired => "Logo required"
  }

  /** The `Success` enum. */
  datatype Success =
    | Registered
    | Logout
    | PasswordChanged
    | PasswordRecovered
    | OtpSent
    | OtpResent
    | NewsDeleted
    | NewsCreated
    | NewsUpdated
    | UserUpdated
    | VacancyDeleted
    | VacancyCreated
    | VacancyUpdated

  function SuccessText(s: Success): string
  {
    match s
    case Registered => "User successful registered"
    case Logout => "You successful logout"
    case PasswordChanged => "Password successful changed"
    case PasswordRecovered => "Password successful recovered"
    case OtpSent => "Code successful sent"
    case OtpResent => "Code successful resent"
    case NewsDeleted => "News successful deleted"
    case NewsCreated => "News successful created"
    case NewsUpdated => "News successful updated"
    case UserUpdated => "User successful updated"
    case VacancyDeleted => "Vacancy successful deleted"
    case VacancyCreated => "Vacancy successful created"
    case VacancyUpdated => "Vacancy successful updated"
  }

  /** The `ImageFolders` enum. */
  datatype ImageFolder = Avatars | NewsImages | Posters | CompanyLogos

  function FolderName(f: ImageFolder): string
  {
    match f
    case Avatars => "avatars"
    case NewsImages => "newsImages"
    case Posters => "posters"
    case CompanyLogos => "companyLogos"
  }

  /**
   * Clients tell errors apart by their message only, so no two members of
   * `Errors` may share a text.
   */
  lemma ErrorTextInjective(a: Errors, b: Errors)
    ensures ErrorText(a) == ErrorText(b) ==> a == b
  {
  }

  /** Folder names are distinct, so a folder can be read back from its name. */
  lemma FolderNameInjective(a: ImageFolder, b: ImageFolder)
    ensures FolderName(a) == FolderName(b) ==> a == b
  {
  }
}

=== FILE: http.dfy ===
/**
 * The parts of an express request the middlewares read and write, and
 * what a middleware passes to `next`.
 */
module Http {
  import opened Wrappers
  import opened ApiErrors
  import opened TokenService

  /** A JSON value of a request body. */
  datatype Json =
    | JNull
    | JBool(b: bool)
    | JNumber(n: int)
    | JString(s: string)
    | JArray(items: seq<Json>)
    | JObject(fields: map<string, Json>)

  /** `next()` (go on to the next handler) or `next(err)` (go to the error middleware). */
  datatype Next = Proceed | Abort(error: ApiError)

  class Request {
    /** `req.headers.authorization`; `None` when the header is absent. */
    var authorization: Option<string>
    /** `req.body`. */
    var body: map<string, Json>
    /** `req.user`, set by the access-token middleware. */
    var user: Option<Claims>

    constructor (authorization: Option<string>, body: map<string, Json>)
      ensures this.authorization == authorization && this.body == body && user.None?
    {
      this.authorization := authorization;
      this.body := body;
      user := None;
    }
  }
}

=== FILE: image_service.dfy ===
/**
 * `ImageService.getImageUrl`: the public URL under which an uploaded image
 * is served, for one file name or for a list of them. The `API_URL`
 * environment variable is the parameter `apiUrl`.
 */
module ImageService {
  import opened Globals

  /** A stored image reference: one file name, or an array of them. */
  datatype ImageRef = Single(name: string) | Many(names: seq<string>)

  /** The URL path segment shared by every image of `folder`. */
  function UrlPrefix(apiUrl: string, folder: ImageFolder): string
  {
    apiUrl + "/api/images/" + FolderName(folder) + "/"
  }

  /** The template string for one file. */
  function FileUrl(apiUrl: string, folder: ImageFolder, file: string): (url: string)
    ensures |url| == |UrlPrefix(apiUrl, folder)| + |file|
    ensures url[..|UrlPrefix(apiUrl, folder)|] == UrlPrefix(apiUrl, folder)
    ensures url[|UrlPrefix(apiUrl, folder)|..] == file
  {
    UrlPrefix(apiUrl, folder) + file
  }

  /**
   * `getImageUrl(file, folder)`: a single name maps to a single URL; an
   * array maps element by element, keeping length and order.
   */
  function GetImageUrl(apiUrl: string, file: ImageRef, folder: ImageFolder): (r: ImageRef)
    ensures r.Single? <==> file.Single?
    ensures file.Single? ==> r.name == FileUrl(apiUrl, folder, file.name)
    ensures file.Many? ==> |r.names| == |file.names|
    ensures file.Many? ==> forall i :: 0 <= i < |file.names| ==> r.names[i] == FileUrl(apiUrl, folder, file.names[i])
  {
    match file
    case Single(f) => Single(FileUrl(apiUrl, folder, f))
    case Many(fs) => Many(seq(|fs|, i requires 0 <= i < |fs| => FileUrl(apiUrl, folder, fs[i])))
  }

  /**
   * The file name can be read back from its URL, so two different files of
   * one folder never share a URL.
   */
  lemma {:induction false} FileUrlInjective(apiUrl: string, folder: ImageFolder, a: string, b: string)
    ensures FileUrl(apiUrl, folder, a) == FileUrl(apiUrl, folder, b) ==> a == b
  {
    var n := |UrlPrefix(apiUrl, folder)|;
    if FileUrl(apiUrl, folder, a) == FileUrl(apiUrl, folder, b) {
      calc {
        a;
        FileUrl(apiUrl, folder, a)[n..];
        FileUrl(apiUrl, folder, b)[n..];
        b;
      }
    }
  }

  /** An empty array of names maps to an empty array of URLs. */
  lemma EmptyArrayMapsToEmpty(apiUrl: string, folder: ImageFolder)
    ensures GetImageUrl(apiUrl, Many([]), folder) == Many([])
  {
  }
}

=== FILE: otp.dfy ===
/**
 * `generateOtp`: six rounds of `otp = otp * 10 + d`, each `d` a digit
 * drawn by `Math.floor(Math.random() * 10)`. The draws are the parameter
 * `digits`.
 */
module Otp {

  function Pow10(n: nat): (p: nat)
    ensures p >= 1
  {
    if n == 0 then 1 else 10 * Pow10(n - 1)
  }

  predicate AllDigits(ds: seq<nat>)
  {
    forall i :: 0 <= i < |ds| ==> ds[i] <= 9
  }

  /** The number the digits spell, most significant first. */
  function DigitsValue(ds: seq<nat>): nat
  {
    if ds == [] then 0 else DigitsValue(ds[..|ds| - 1]) * 10 + ds[|ds| - 1]
  }

  /** The last `n` decimal digits of `v`, most significant first (zero-padded). */
  function ToDigits(v: nat, n: nat): (ds: seq<nat>)
    ensures |ds| == n && AllDigits(ds)
  {
    if n == 0 then [] else ToDigits(v / 10, n - 1) + [v % 10]
  }

  /** `n` digits spell a number below `10^n`, and below `10^(n-1)` exactly when the first digit is 0. */
  lemma {:induction false} DigitsValueBounds(ds: seq<nat>)
    requires AllDigits(ds)
    ensures DigitsValue(ds) < Pow10(|ds|)
    ensures |ds| > 0 ==> (DigitsValue(ds) < Pow10(|ds| - 1) <==> ds[0] == 0)
  {
    if ds != [] {
      var init := ds[..|ds| - 1];
      DigitsValueBounds(init);
      if |ds| > 1 {
        assert init[0] == ds[0];
        var v, p := DigitsValue(init), Pow10(|ds| - 2);
        if ds[0] == 0 {
          assert v <= p - 1;
          assert v * 10 <= p * 10 - 10;
        } else {
          assert v >= p;
          assert v * 10 >= p * 10;
        }
      }
    }
  }

  /** Reading the digits back from the number gives the draws: no two draws give one code. */
  lemma {:induction false} ToDigitsOfValue(ds: seq<nat>)
    requires AllDigits(ds)
    ensures ToDigits(DigitsValue(ds), |ds|) == ds
  {
    if ds != [] {
      var init := ds[..|ds| - 1];
      var v := DigitsValue(ds);
      assert v / 10 == DigitsValue(init) && v % 10 == ds[|ds| - 1];
      ToDigitsOfValue(init);
      assert init + [ds[|ds| - 1]] == ds;
    }
  }

  method GenerateOtp(digits: seq<nat>) returns (otp: nat)
    requires |digits| == 6 && AllDigits(digits)
    ensures otp == DigitsValue(digits)
    ensures otp <= 999999
    ensures otp < 100000 <==> digits[0] == 0
  {
    otp := 0;
    for i := 0 to 6
      invariant otp == DigitsValue(digits[..i])
    {
      assert digits[..i + 1][..i] == digits[..i];
      otp := otp * 10 + digits[i];
    }
    assert digits[..6] == digits;
    DigitsValueBounds(digits);
  }
}

=== FILE: otp_redemption.dfy ===
/**
 * How a one-time code travels back from the client: the `code` field of
 * the reset-password request body passes the route's validator
 * (`isNumeric` and a length of exactly six on its text) and is then
 * compared with the stored number by `resetPassword`.
 *
 * As written, a code below 100000 can never be redeemed: as a JSON number
 * its text has fewer than six characters, and as six characters of text
 * it is a string, which the strict comparison never equates with the
 * stored number. The corrected reading takes the number the field
 * denotes; `AuthService.Auth.ResetPassword` receives that number.
 */
module OtpRedemption {
  import opened Wrappers
  import opened Otp

  /** The `code` field of a request body: a JSON number or a JSON string. */
  datatype Submitted = Number(n: nat) | Text(s: string)

  predicate IsDigit(c: char)
  {
    '0' <= c <= '9'
  }

  function DigitChar(d: nat): (c: char)
    requires d <= 9
    ensures IsDigit(c) && c as int == '0' as int + d
  {
    ('0' as int + d) as char
  }

  /** `String(n)` for a non-negative integer: its decimal digits without leading zeros. */
  function Decimal(n: nat): (s: string)
    ensures |s| >= 1
    ensures forall i :: 0 <= i < |s| ==> IsDigit(s[i])
    ensures s[0] == '0' <==> n == 0
  {
    if n < 10 then [DigitChar(n)] else Decimal(n / 10) + [DigitChar(n % 10)]
  }

  /** Reading the decimal text back gives the number: `String` loses nothing. */
  lemma {:induction false} DecimalValue(n: nat)
    ensures DigitsValue(TextDigits(Decimal(n))) == n
  {
    var ds := TextDigits(Decimal(n));
    if n < 10 {
      assert ds == [n];
      assert ds[..0] == [];
    } else {
      DecimalValue(n / 10);
      var init := TextDigits(Decimal(n / 10));
      assert ds[..|ds| - 1] == init;
      assert ds[|ds| - 1] == n % 10;
    }
  }

  /** The decimal text of `n` has at most `k` characters exactly when `n < 10^k`. */
  lemma {:induction false} DecimalLength(n: nat, k: nat)
    requires k >= 1
    ensures |Decimal(n)| <= k <==> n < Pow10(k)
  {
    if n >= 10 {
      assert |Decimal(n)| == |Decimal(n / 10)| + 1;
      if k == 1 {
        assert Pow10(1) == 10;
      } else {
        DecimalLength(n / 10, k - 1);
        var p := Pow10(k - 1);
        assert Pow10(k) == 10 * p;
        if n / 10 < p {
          assert n / 10 <= p - 1;
          assert n < 10 * (n / 10) + 10 <= 10 * p;
        } else {
          assert n >= 10 * (n / 10) >= 10 * p;
        }
      }
    } else {
      assert Pow10(k) >= 10 by {
        assert Pow10(k) == 10 * Pow10(k - 1);
      }
    }
  }

  /**
   * The `isNumeric` check of the validator library: an optional sign, then
   * digits with at most one decimal point, ending in a digit.
   */
  function NumericText(s: string): (b: bool)
    ensures |s| > 0 && (forall i :: 0 <= i < |s| ==> IsDigit(s[i])) ==> b
    ensures b ==> |s| > 0 && IsDigit(s[|s| - 1])
  {
    var t := if |s| > 0 && (s[0] == '+' || s[0] == '-') then s[1..] else s;
    && |t| > 0
    && IsDigit(t[|t| - 1])
    && (forall i :: 0 <= i < |t| ==> IsDigit(t[i]) || t[i] == '.')
    && (forall i, j :: 0 <= i < j < |t| && t[i] == '.' ==> t[j] != '.')
  }

  /** The text the validator sees: a number is converted with `String`. */
  function FieldText(c: Submitted): string
  {
    match c
    case Number(n) => Decimal(n)
    case Text(s) => s
  }

  /** A number's decimal text has exactly six characters when the number has six digits. */
  lemma DecimalSixDigits(n: nat)
    ensures |Decimal(n)| == 6 <==> 100000 <= n <= 999999
  {
    DecimalLength(n, 5);
    DecimalLength(n, 6);
    assert Pow10(5) == 100000 && Pow10(6) == 1000000;
  }

  /**
   * `body('code').isNumeric().isLength({ min: 6, max: 6 })`: a number
   * passes exactly when it has six digits; six decimal digits of text pass.
   */
  function RouteAccepts(c: Submitted): (b: bool)
    ensures c.Number? ==> (b <==> 100000 <= c.n <= 999999)
    ensures c.Text? && |c.s| == 6 && (forall i :: 0 <= i < 6 ==> IsDigit(c.s[i])) ==> b
  {
    if c.Number? then
      DecimalSixDigits(c.n);
      NumericText(FieldText(c)) && |FieldText(c)| == 6
    else
      NumericText(FieldText(c)) && |FieldText(c)| == 6
  }

  /**
   * The route passes the field and `user.resetCode !== code` is false. As
   * written only a stored code of six digits can be redeemed at all, and
   * then only by that number sent as a JSON number.
   */
  function RedeemsAsWritten(stored: nat, c: Submitted): (b: bool)
    ensures b ==> 100000 <= stored <= 999999
    ensures 100000 <= stored <= 999999 ==> (b <==> c == Number(stored))
  {
    RouteAccepts(c) && c == Number(stored)
  }

  /** As written: a stored code below 100000 is redeemed by no request at all. */
  lemma ShortCodeNeverRedeemed(stored: nat, c: Submitted)
    requires stored < 100000
    ensures !RedeemsAsWritten(stored, c)
  {
    if c == Number(stored) {
      DecimalLength(stored, 5);
      assert Pow10(5) == 100000;
    }
  }

  /** As written: a draw whose first digit is 0 produces a code nobody can redeem. */
  lemma LeadingZeroDrawIsLost(digits: seq<nat>, c: Submitted)
    requires |digits| == 6 && AllDigits(digits) && digits[0] == 0
    ensures !RedeemsAsWritten(DigitsValue(digits), c)
  {
    DigitsValueBounds(digits);
    assert Pow10(5) == 100000;
    ShortCodeNeverRedeemed(DigitsValue(digits), c);
  }

  /**
   * The draw 0,1,2,3,4,5: the stored and mailed code is 12345, and
   * neither the number 12345 nor the texts "12345" and "012345" redeem it.
   */
  lemma DrawZeroToFiveIsLost()
    ensures DigitsValue([0, 1, 2, 3, 4, 5]) == 12345
    ensures !RedeemsAsWritten(12345, Number(12345))
    ensures !RedeemsAsWritten(12345, Text("12345"))
    ensures !RedeemsAsWritten(12345, Text("012345"))
  {
    var ds: seq<nat> := [0, 1, 2, 3, 4, 5];
    assert DigitsValue(ds[..1]) == 0;
    assert DigitsValue(ds[..2]) == 1 by { assert ds[..2][..1] == ds[..1]; }
    assert DigitsValue(ds[..3]) == 12 by { assert ds[..3][..2] == ds[..2]; }
    assert DigitsValue(ds[..4]) == 123 by { assert ds[..4][..3] == ds[..3]; }
    assert DigitsValue(ds[..5]) == 1234 by { assert ds[..5][..4] == ds[..4]; }
    assert DigitsValue(ds) == 12345 by { assert ds[..5] == ds[..|ds| - 1]; }
    ShortCodeNeverRedeemed(12345, Number(12345));
  }

  /** The digit values of a text of decimal digits. */
  function TextDigits(s: string): (ds: seq<nat>)
    requires forall i :: 0 <= i < |s| ==> IsDigit(s[i])
    ensures |ds| == |s| && AllDigits(ds)
    ensures forall i :: 0 <= i < |s| ==> DigitChar(ds[i]) == s[i] && ds[i] == s[i] as int - '0' as int
  {
    if s == [] then []
    else
      assert IsDigit(s[0]);
      [(s[0] as int - '0' as int) as nat] + TextDigits(s[1..])
  }

  /** The characters of a sequence of digits. */
  function Render(ds: seq<nat>): (s: string)
    requires AllDigits(ds)
    ensures |s| == |ds|
    ensures forall i :: 0 <= i < |ds| ==> s[i] == DigitChar(ds[i])
  {
    if ds == [] then "" else [DigitChar(ds[0])] + Render(ds[1..])
  }

  /** Reading rendered digits back gives the digits. */
  lemma TextDigitsOfRender(ds: seq<nat>)
    requires AllDigits(ds)
    ensures TextDigits(Render(ds)) == ds
  {
    var back := TextDigits(Render(ds));
    forall i | 0 <= i < |ds|
      ensures back[i] == ds[i]
    {
      assert DigitChar(back[i]) == DigitChar(ds[i]);
    }
  }

  /** A smaller power of ten is no larger. */
  lemma {:induction false} Pow10Monotone(a: nat, b: nat)
    requires a <= b
    ensures Pow10(a) <= Pow10(b)
    decreases b - a
  {
    if a < b {
      Pow10Monotone(a + 1, b);
    }
  }

  /** A text the corrected check reads as a code: one to six decimal digits. */
  predicate CodeText(s: string)
  {
    1 <= |s| <= 6 && forall i :: 0 <= i < |s| ==> IsDigit(s[i])
  }

  /**
   * Corrected: the number a submitted code denotes, when it is one: a JSON
   * number of at most six digits, or a text of one to six decimal digits
   * (leading zeros allowed), read as a decimal number.
   */
  function CodeValue(c: Submitted): (v: Option<nat>)
    ensures v.Some? ==> v.value <= 999999
    ensures c.Number? ==> (v.Some? <==> c.n <= 999999) && (v.Some? ==> v.value == c.n)
    ensures c.Text? ==> (v.Some? <==> CodeText(c.s))
    ensures c.Text? && v.Some? ==> v.value == DigitsValue(TextDigits(c.s))
  {
    match c
    case Number(n) => if n <= 999999 then Some(n) else None
    case Text(s) =>
      if CodeText(s) then
        DigitsValueBounds(TextDigits(s));
        Pow10Monotone(|s|, 6);
        assert Pow10(6) == 1000000;
        Some(DigitsValue(TextDigits(s)))
      else None
  }

  /** Corrected: a request redeems the stored code when its field denotes that number. */
  predicate Redeems(stored: nat, c: Submitted)
  {
    CodeValue(c) == Some(stored)
  }

  /**
   * Corrected: every generated code is redeemable as a number, as the
   * unpadded text the mail shows (`${code}`), and as its six digits
   * zero-padded.
   */
  lemma GeneratedCodeRedeemable(digits: seq<nat>)
    requires |digits| == 6 && AllDigits(digits)
    ensures Redeems(DigitsValue(digits), Number(DigitsValue(digits)))
    ensures Redeems(DigitsValue(digits), Text(Decimal(DigitsValue(digits))))
    ensures Redeems(DigitsValue(digits), Text(Render(digits)))
  {
    var code := DigitsValue(digits);
    DigitsValueBounds(digits);
    assert Pow10(6) == 1000000;
    DecimalLength(code, 6);
    DecimalValue(code);
    TextDigitsOfRender(digits);
  }

  /** Corrected: every request the code as written lets through still redeems the same code. */
  lemma CorrectionKeepsAcceptedRequests(stored: nat, c: Submitted)
    requires RedeemsAsWritten(stored, c)
    ensures Redeems(stored, c)
  {
    DecimalLength(stored, 6);
    assert Pow10(6) == 1000000;
  }
}

=== FILE: pagination.dfy ===
/**
 * The `paginate` helper: page arithmetic around two document-store calls.
 * The store is modelled by the full collection `docs`, already in the
 * store's sort order (newest first), and the filter `matches` standing for
 * the `query` object.
 */
module Pagination {
  import opened ApiErrors

  /** The `PaginationResponse` shape. */
  datatype PaginationResponse<T> = PaginationResponse(
    total: nat,
    totalPages: nat,
    currentPage: int,
    hasNextPage: bool,
    hasPrevPage: bool,
    perPage: int,
    results: seq<T>)

  /** `paginate` either answers or fails with the store's error turned into a bad request. */
  datatype Paged<T> = Answered(response: PaginationResponse<T>) | Failed(error: ApiError)

  /** `page || 1`: a zero page number means the first page. */
  function PageNumber(page: int): (n: int)
    ensures n != 0
    ensures page != 0 ==> n == page
    ensures page == 0 ==> n == 1
  {
    if page == 0 then 1 else page
  }

  /** `(pageNumber - 1) * perPage`: how many matching documents come before the page. */
  function Skip(pageNumber: int, perPage: int): (r: int)
    ensures r + perPage == pageNumber * perPage
    ensures perPage > 0 ==> (r >= 0 <==> pageNumber >= 1)
  {
    if perPage > 0 && pageNumber >= 1 then
      MulMonotone(0, pageNumber - 1, perPage);
      (pageNumber - 1) * perPage
    else if perPage > 0 then
      MulMonotone(pageNumber - 1, -1, perPage);
      (pageNumber - 1) * perPage
    else
      (pageNumber - 1) * perPage
  }

  /** `Math.ceil(total / perPage)`: the least number of pages that holds `total` documents. */
  function TotalPages(total: nat, perPage: int): (k: nat)
    requires perPage > 0
    ensures k * perPage >= total
    ensures k > 0 ==> (k - 1) * perPage < total
  {
    (total + perPage - 1) / perPage
  }

  /** The documents the `query` selects, in store order. */
  function Filter<T>(docs: seq<T>, matches: T -> bool): (r: seq<T>)
    ensures |r| <= |docs|
    ensures forall x :: x in r ==> x in docs && matches(x)
    ensures forall x :: x in docs && matches(x) ==> x in r
    ensures (forall x :: x in docs ==> matches(x)) ==> r == docs
    ensures |docs| == 1 ==> r == (if matches(docs[0]) then docs else [])
  {
    if docs == [] then []
    else (if matches(docs[0]) then [docs[0]] else []) + Filter(docs[1..], matches)
  }

  /**
   * Filtering keeps store order: the matches of a concatenation are the
   * matches of the first part followed by those of the second. With the
   * one-document case of `Filter`, this fixes the result exactly.
   */
  lemma {:induction false} FilterConcat<T>(a: seq<T>, b: seq<T>, matches: T -> bool)
    ensures Filter(a + b, matches) == Filter(a, matches) + Filter(b, matches)
  {
    if a == [] {
      assert a + b == b;
    } else {
      assert (a + b)[1..] == a[1..] + b;
      FilterConcat(a[1..], b, matches);
    }
  }

  /** `.skip(skip).limit(limit)` on a non-negative skip. */
  function Window<T>(xs: seq<T>, skip: nat, limit: nat): (r: seq<T>)
    ensures |r| <= limit
    ensures skip + limit <= |xs| ==> |r| == limit
    ensures skip < |xs| < skip + limit ==> |r| == |xs| - skip
    ensures skip >= |xs| ==> r == []
    ensures forall i :: 0 <= i < |r| ==> skip + i < |xs| && r[i] == xs[skip + i]
  {
    if skip >= |xs| then []
    else if skip + limit <= |xs| then xs[skip..skip + limit]
    else xs[skip..]
  }

  /**
   * `paginate(model, page, perPage, query)`. `total` counts the whole
   * collection, whatever `query` selects. A negative skip (a negative
   * page number) is refused by the store, which the helper reports as the
   * bad request 'Error paginating'.
   */
  function Paginate<T>(docs: seq<T>, matches: T -> bool, page: int, perPage: int): (r: Paged<T>)
    requires perPage > 0
    ensures r.Failed? <==> PageNumber(page) < 1
    ensures r.Failed? ==> r.error == BadRequest("Error paginating")
    ensures r.Answered? ==> r.response.total == |docs|
    ensures r.Answered? ==> r.response.totalPages == TotalPages(|docs|, perPage)
    ensures r.Answered? ==>
              && Skip(PageNumber(page), perPage) >= 0
              && r.response.results == Window(Filter(docs, matches), Skip(PageNumber(page), perPage), perPage)
    ensures r.Answered? ==> r.response.currentPage == PageNumber(page) && r.response.perPage == perPage
    ensures r.Answered? ==> (r.response.hasNextPage <==> PageNumber(page) < r.response.totalPages)
    ensures r.Answered? ==> (r.response.hasPrevPage <==> PageNumber(page) > 1)
    ensures r.Answered? ==> |r.response.results| <= perPage
  {
    var pageNumber := PageNumber(page);
    var skip := Skip(pageNumber, perPage);
    if skip < 0 then
      Failed(BadRequest("Error paginating"))
    else
      var total := |docs|;
      var totalPages := TotalPages(total, perPage);
      Answered(PaginationResponse(
        total,
        totalPages,
        pageNumber,
        pageNumber < totalPages,
        pageNumber > 1,
        perPage,
        Window(Filter(docs, matches), skip, perPage)))
  }

  lemma MulMonotone(a: int, b: int, c: int)
    requires a <= b && c > 0
    ensures a * c <= b * c
  {
  }

  /**
   * With an empty query, every page before the last is full: it holds
   * exactly `perPage` documents, the ones at positions `skip` onwards.
   */
  lemma InnerPagesAreFull<T>(docs: seq<T>, page: int, perPage: int)
    requires perPage > 0
    requires 1 <= PageNumber(page) < TotalPages(|docs|, perPage)
    ensures Paginate(docs, (x: T) => true, page, perPage).Answered?
    ensures Paginate(docs, (x: T) => true, page, perPage).response.hasNextPage
    ensures var res := Paginate(docs, (x: T) => true, page, perPage).response;
      |res.results| == perPage &&
      forall i :: 0 <= i < perPage ==> res.results[i] == docs[Skip(PageNumber(page), perPage) + i]
  {
    var n := PageNumber(page);
    var k := TotalPages(|docs|, perPage);
    MulMonotone(n, k - 1, perPage);
    assert Skip(n, perPage) + perPage == n * perPage;
    assert Filter(docs, (x: T) => true) == docs;
  }

  /**
   * Under an empty query, a page between the first and the last is never
   * empty.
   */
  lemma PagesUpToTotalAreNonEmpty<T>(docs: seq<T>, page: int, perPage: int)
    requires perPage > 0
    requires 1 <= PageNumber(page) <= TotalPages(|docs|, perPage)
    ensures Paginate(docs, (x: T) => true, page, perPage).Answered?
    ensures |Paginate(docs, (x: T) => true, page, perPage).response.results| > 0
  {
    var n := PageNumber(page);
    var k := TotalPages(|docs|, perPage);
    MulMonotone(n - 1, k - 1, perPage);
    assert Filter(docs, (x: T) => true) == docs;
  }
}

=== FILE: role_check_middleware.dfy ===
/**
 * `roleCheckMiddleware`: lets a request through only when the user the
 * access token names is an administrator. It runs after `authMiddleware`,
 * so `req.user` is always set, and it changes nothing on the request.
 */
module RoleCheckMiddleware {
  import opened Globals
  import opened ApiErrors
  import opened ErrorMiddleware
  import opened TokenService
  import opened Http

  function RoleCheck(user: Claims): (n: Next)
    ensures n == Proceed <==> user.user.isAdmin
    ensures n.Abort? ==> n.error == BadRequest(ErrorText(AuthPermissionDenied))
  {
    if user.user.isAdmin then Proceed else Abort(BadRequest(ErrorText(AuthPermissionDenied)))
  }

  /** A refused non-administrator is answered 400 (not 401 or 403), with the permission message. */
  lemma DenialIsBadRequest(user: Claims)
    requires !user.user.isAdmin
    ensures Handle(Api(RoleCheck(user).error)) == Response(400, ErrorText(AuthPermissionDenied), [])
  {
  }
}

=== FILE: scenarios.dfy ===
/**
 * Runs of several service calls, stated as client methods: what a caller
 * can rely on from the operations' contracts alone.
 */
module Scenarios {
  import opened Globals
  import opened UserModel
  import opened TokenService
  import opened Otp
  import opened AuthService
  import opened Wrappers

  /**
   * Register, try to log in before activating, activate with the mailed
   * link, log in again: the first login is refused as not activated, the
   * second returns a session for the registered email.
   */
  method RegisterActivateLogin(a: Auth, email: string, password: string, name: string, surname: string,
                               phoneNumber: string, link: string, now: nat, clock: string)
    returns (registered: Outcome<string>, early: Outcome<Session>, activated: Outcome<()>, late: Outcome<Session>)
    requires a.Valid()
    requires FindByEmail(a.users, email).None?
    requires forall i :: 0 <= i < |a.users| ==> a.users[i].activationLink != Some(link)
    requires email != "" && name != "" && surname != "" && phoneNumber != "" && a.hash(password) != ""
    modifies a, a.tokens
    ensures a.Valid() && Evolves(old(a.users), a.users)
    ensures registered == Ok(SuccessText(Registered))
    ensures early == Err(EmailIsActivated)
    ensures activated.Ok?
    ensures late.Ok? && late.value.user.email == email
  {
    var n := |a.users|;
    registered := a.Registration(email, password, name, surname, phoneNumber, link, now, clock);
    assert a.users[n].email == email && a.users[n].activationLink == Some(link);
    FindByEmailFindsOwner(a.users, n);
    early := a.Login(email, password, now);
    ghost var registeredUsers := a.users;
    activated := a.Activate(link);
    EvolvesTransitive(old(a.users), registeredUsers, a.users);
    FindByEmailFindsOwner(a.users, n);
    late := a.Login(email, password, now);
  }

  /**
   * A later login of the same account, at a different time, supersedes
   * the refresh token of the earlier one: refreshing with the earlier
   * token is then refused.
   */
  method LoginSupersedesEarlierToken(a: Auth, email: string, password: string, t1: nat, t2: nat, t3: nat)
    returns (first: Outcome<Session>, second: Outcome<Session>, retry: Outcome<Session>)
    requires a.Valid() && Sound(a.jwt.signer) && t1 != t2
    modifies a.tokens
    ensures a.Valid()
    ensures first.Ok? ==> second.Ok? && second.value.refreshToken != first.value.refreshToken
    ensures first.Ok? ==> retry == Err(AuthError)
  {
    first := a.Login(email, password, t1);
    var afterFirst := a.tokens.records;
    second := a.Login(email, password, t2);
    if first.Ok? {
      var u := a.users[FindByEmail(a.users, email).value];
      var tok1, tok2 := first.value.refreshToken, second.value.refreshToken;
      SignedTokensDiffer(a.jwt.signer, Claims(first.value.user, t1), a.jwt.refreshSecret, RefreshLifetime,
                         Claims(second.value.user, t2), a.jwt.refreshSecret, RefreshLifetime);
      IssuedTokensDistinct(a.jwt.signer, a.jwt.refreshSecret, afterFirst);
      SupersededTokenIsGone(afterFirst, u.id, tok2);
      retry := a.Refresh(Some(tok1), t3);
    } else {
      retry := Err(AuthError);
    }
  }

  /**
   * Send a code, reset the password with it, use it again: the reset
   * succeeds and stores the new hash, the second use is refused because
   * the code was consumed, and an activated account can then log in with
   * the new password.
   */
  method OtpCodeIsSingleUse(a: Auth, email: string, digits: seq<nat>, newPassword: string, now: nat)
    returns (sent: Outcome<()>, reset: Outcome<()>, reused: Outcome<()>, login: Outcome<Session>)
    requires a.Valid() && |digits| == 6 && AllDigits(digits)
    requires FindByEmail(a.users, email).Some?
    modifies a, a.tokens
    ensures a.Valid()
    ensures sent.Ok? && reset.Ok? && reused == Err(OtpDidNotSend)
    ensures FindByEmail(a.users, email) == FindByEmail(old(a.users), email)
    ensures var i := FindByEmail(old(a.users), email).value;
      a.users[i].password == a.hash(newPassword) && a.users[i].resetCode.None?
    ensures a.users[FindByEmail(old(a.users), email).value].isActivated ==> login.Ok?
  {
    var i := FindByEmail(a.users, email).value;
    FindByEmailFindsOwner(a.users, i);
    sent := a.SendOtpCode(email, digits);
    assert a.users[i].email == email && a.users[i].resetCode == Some(DigitsValue(digits));
    FindByEmailFindsOwner(a.users, i);
    reset := a.ResetPassword(email, DigitsValue(digits), newPassword, newPassword);
    assert a.users[i].email == email && a.users[i].resetCode.None?;
    assert a.users[i].password == a.hash(newPassword);
    FindByEmailFindsOwner(a.users, i);
    reused := a.ResetPassword(email, DigitsValue(digits), newPassword, newPassword);
    FindByEmailFindsOwner(a.users, i);
    login := a.Login(email, newPassword, now);
  }

  /**
   * Two accounts registered, one after the other, at clock readings
   * `clock1` and `clock2`, under the schema's `createdAt` default as
   * written: both stored records carry the schema's load time, whatever
   * the clock read, so `createdAt` cannot tell the registrations apart.
   */
  method RegistrationsShareCreatedAt(a: Auth, email1: string, email2: string, password: string, name: string,
                                     surname: string, phoneNumber: string, link1: string, link2: string,
                                     now: nat, clock1: string, clock2: string)
    returns (r1: Outcome<string>, r2: Outcome<string>)
    requires a.Valid() && a.createdAtDefault.AtSchemaLoad?
    requires FindByEmail(a.users, email1).None? && FindByEmail(a.users, email2).None? && email1 != email2
    requires email1 != "" && email2 != "" && name != "" && surname != "" && phoneNumber != "" && a.hash(password) != ""
    modifies a, a.tokens
    ensures a.Valid() && r1.Ok? && r2.Ok?
    ensures |a.users| == |old(a.users)| + 2
    ensures a.users[|a.users| - 2].createdAt == a.createdAtDefault.loadTime
    ensures a.users[|a.users| - 1].createdAt == a.createdAtDefault.loadTime
  {
    r1 := a.Registration(email1, password, name, surname, phoneNumber, link1, now, clock1);
    r2 := a.Registration(email2, password, name, surname, phoneNumber, link2, now, clock2);
  }

  /**
   * The same two registrations under the intended default, evaluated for
   * every record: each record carries its own creation time, so records
   * created at different times have different `createdAt`.
   */
  method RegistrationsKeepCreationTimes(a: Auth, email1: string, email2: string, password: string, name: string,
                                        surname: string, phoneNumber: string, link1: string, link2: string,
                                        now: nat, clock1: string, clock2: string)
    returns (r1: Outcome<string>, r2: Outcome<string>)
    requires a.Valid() && a.createdAtDefault == PerRecord
    requires FindByEmail(a.users, email1).None? && FindByEmail(a.users, email2).None? && email1 != email2
    requires email1 != "" && email2 != "" && name != "" && surname != "" && phoneNumber != "" && a.hash(password) != ""
    modifies a, a.tokens
    ensures a.Valid() && r1.Ok? && r2.Ok?
    ensures |a.users| == |old(a.users)| + 2
    ensures a.users[|a.users| - 2].createdAt == clock1 && a.users[|a.users| - 1].createdAt == clock2
    ensures clock1 != clock2 ==> a.users[|a.users| - 2].createdAt != a.users[|a.users| - 1].createdAt
  {
    r1 := a.Registration(email1, password, name, surname, phoneNumber, link1, now, clock1);
    r2 := a.Registration(email2, password, name, surname, phoneNumber, link2, now, clock2);
  }
}

=== FILE: store.dfy ===
/**
 * The document store's `findOne(filter)`: the first document, in natural
 * order, that the filter selects.
 */
module Store {
  import opened Wrappers

  function FirstIndex<T>(s: seq<T>, p: T -> bool): (r: Option<nat>)
    ensures r.Some? ==> r.value < |s| && p(s[r.value])
    ensures r.Some? ==> forall j :: 0 <= j < r.value ==> !p(s[j])
    ensures r.None? <==> forall j :: 0 <= j < |s| ==> !p(s[j])
  {
    if s == [] then None
    else if p(s[0]) then Some(0)
    else
      match FirstIndex(s[1..], p)
      case Some(i) => Some(i + 1)
      case None => None
  }

  /** `findOne` looks only at which positions the filter selects. */
  lemma {:induction false} FirstIndexSamePattern<T>(s1: seq<T>, s2: seq<T>, p1: T -> bool, p2: T -> bool)
    requires |s1| == |s2|
    requires forall j :: 0 <= j < |s1| ==> p1(s1[j]) == p2(s2[j])
    ensures FirstIndex(s1, p1) == FirstIndex(s2, p2)
  {
    if s1 != [] && !p1(s1[0]) {
      assert p1(s1[0]) == p2(s2[0]);
      FirstIndexSamePattern(s1[1..], s2[1..], p1, p2);
    }
  }

  /** Appending documents never changes a match already present in the prefix. */
  lemma {:induction false} FirstIndexOfPrefix<T>(s: seq<T>, t: seq<T>, p: T -> bool)
    ensures FirstIndex(s, p).Some? ==> FirstIndex(s + t, p) == FirstIndex(s, p)
    ensures FirstIndex(s, p).None? ==>
              FirstIndex(s + t, p) == (match FirstIndex(t, p) case Some(k) => Some(|s| + k) case None => None)
  {
    if s == [] {
      assert s + t == t;
    } else {
      assert (s + t)[0] == s[0];
      assert (s + t)[1..] == s[1..] + t;
      FirstIndexOfPrefix(s[1..], t, p);
    }
  }
}

=== FILE: token_service.dfy ===
/**
 * The token service: signing and checking the two kinds of JSON web
 * token, and the refresh-token collection that keeps the one live refresh
 * token of each user.
 *
 * The JWT library is abstract: a `Signer` is a pair of functions, `sign`
 * and `verify`, and `Sound` states what the library guarantees of them.
 * Expiry is not checked (it needs a clock); the lifetimes are recorded as
 * an argument of `sign`.
 */
module TokenService {
  import opened Wrappers
  import opened UserModel
  import opened UserDtos
  import Store

  /** What a token says: the public user snapshot and the issue time (`iat`). */
  datatype Claims = Claims(user: UserDto, issuedAt: nat)

  /** The outcome of `jwt.verify`: failure (null), a string payload, or an object payload. */
  datatype Verified = Rejected | Text(text: string) | Payload(claims: Claims)

  datatype Lifetime = Minutes(n: nat) | Days(n: nat)

  /** `expiresIn: '30m'` for access tokens. */
  const AccessLifetime: Lifetime := Minutes(30)
  /** `expiresIn: '30d'` for refresh tokens. */
  const RefreshLifetime: Lifetime := Days(30)

  datatype Signer = Signer(sign: (Claims, string, Lifetime) -> string, verify: (string, string) -> Verified)

  /** The library and the two secrets `JWT_ACCESS_SECRET` and `JWT_REFRESH_SECRET`. */
  datatype JwtConfig = JwtConfig(signer: Signer, accessSecret: string, refreshSecret: string)

  /**
   * What a JWT library guarantees: a token verifies under the secret it was
   * signed with, giving back its claims, and fails under any other secret.
   */
  ghost predicate Sound(s: Signer)
  {
    && (forall c, key, life :: s.verify(s.sign(c, key, life), key) == Payload(c))
    && (forall c, key, life, other :: other != key ==> s.verify(s.sign(c, key, life), other) == Rejected)
  }

  /** A sound signer never gives two different claims, or two different secrets, the same token. */
  lemma SignedTokensDiffer(s: Signer, c1: Claims, k1: string, l1: Lifetime, c2: Claims, k2: string, l2: Lifetime)
    requires Sound(s)
    requires c1 != c2 || k1 != k2
    ensures s.sign(c1, k1, l1) != s.sign(c2, k2, l2)
  {
    assert s.verify(s.sign(c1, k1, l1), k1) == Payload(c1);
    if k1 == k2 {
      assert s.verify(s.sign(c2, k2, l2), k1) == Payload(c2);
    } else {
      assert s.verify(s.sign(c2, k2, l2), k1) == Rejected;
    }
  }

  datatype TokenPair = TokenPair(accessToken: string, refreshToken: string)

  /** `generateTokens(payload)`: the same claims, signed once per secret. */
  function GenerateTokens(cfg: JwtConfig, claims: Claims): (p: TokenPair)
    ensures p.accessToken == cfg.signer.sign(claims, cfg.accessSecret, AccessLifetime)
    ensures p.refreshToken == cfg.signer.sign(claims, cfg.refreshSecret, RefreshLifetime)
  {
    TokenPair(cfg.signer.sign(claims, cfg.accessSecret, AccessLifetime),
              cfg.signer.sign(claims, cfg.refreshSecret, RefreshLifetime))
  }

  /**
   * `validateAccessToken(token)`. It never throws: every verification
   * failure, including the one for a missing token (`undefined`), is
   * `Rejected`.
   */
  function ValidateAccessToken(cfg: JwtConfig, token: Option<string>): (v: Verified)
    ensures token.None? ==> v == Rejected
    ensures token.Some? ==> v == cfg.signer.verify(token.value, cfg.accessSecret)
  {
    match token
    case None => Rejected
    case Some(t) => cfg.signer.verify(t, cfg.accessSecret)
  }

  /** `validateRefreshToken(token)`. */
  function ValidateRefreshToken(cfg: JwtConfig, token: string): (v: Verified)
    ensures v == cfg.signer.verify(token, cfg.refreshSecret)
  {
    cfg.signer.verify(token, cfg.refreshSecret)
  }

  /**
   * Each token of a fresh pair is accepted by its own validator, giving
   * back the claims, and refused by the other one, so a refresh token can
   * never pass as an access token or the reverse.
   */
  lemma GeneratedTokensValidate(cfg: JwtConfig, claims: Claims)
    requires Sound(cfg.signer) && cfg.accessSecret != cfg.refreshSecret
    ensures ValidateAccessToken(cfg, Some(GenerateTokens(cfg, claims).accessToken)) == Payload(claims)
    ensures ValidateRefreshToken(cfg, GenerateTokens(cfg, claims).refreshToken) == Payload(claims)
    ensures ValidateAccessToken(cfg, Some(GenerateTokens(cfg, claims).refreshToken)) == Rejected
    ensures ValidateRefreshToken(cfg, GenerateTokens(cfg, claims).accessToken) == Rejected
  {
  }

  // ---------------------------------------------------------------------
  // The refresh-token collection

  /** A `Token` document. */
  datatype TokenRecord = TokenRecord(user: UserId, refreshToken: string)

  /** `findOne({ user })`. */
  function FindByUser(records: seq<TokenRecord>, user: UserId): (r: Option<nat>)
    ensures r.Some? ==> r.value < |records| && records[r.value].user == user
    ensures r.Some? ==> forall j :: 0 <= j < r.value ==> records[j].user != user
    ensures r.None? <==> forall j :: 0 <= j < |records| ==> records[j].user != user
  {
    Store.FirstIndex(records, (x: TokenRecord) => x.user == user)
  }

  /** `findOne({ refreshToken })`. */
  function FindByToken(records: seq<TokenRecord>, token: string): (r: Option<nat>)
    ensures r.Some? ==> r.value < |records| && records[r.value].refreshToken == token
    ensures r.Some? ==> forall j :: 0 <= j < r.value ==> records[j].refreshToken != token
    ensures r.None? <==> forall j :: 0 <= j < |records| ==> records[j].refreshToken != token
  {
    Store.FirstIndex(records, (x: TokenRecord) => x.refreshToken == token)
  }

  /** The refresh token the collection holds for `user`, if any. */
  function TokenOfUser(records: seq<TokenRecord>, user: UserId): Option<string>
  {
    match FindByUser(records, user)
    case Some(i) => Some(records[i].refreshToken)
    case None => None
  }

  /** At most one record, so at most one live refresh token, per user. */
  ghost predicate OnePerUser(records: seq<TokenRecord>)
  {
    forall i, j :: 0 <= i < |records| && 0 <= j < |records| && i != j ==> records[i].user != records[j].user
  }

  /** No two records hold the same token. */
  ghost predicate DistinctTokens(records: seq<TokenRecord>)
  {
    forall i, j :: 0 <= i < |records| && 0 <= j < |records| && i != j ==>
      records[i].refreshToken != records[j].refreshToken
  }

  /**
   * `saveToken(user, token)`: overwrite the token of the user's record
   * when there is one, otherwise add a record. The number of records grows
   * only for a user that had none, the user's token becomes `token` and
   * every other user keeps the token it had.
   */
  function Upsert(records: seq<TokenRecord>, user: UserId, token: string): (r: seq<TokenRecord>)
    ensures OnePerUser(records) ==> OnePerUser(r)
    ensures forall x :: x in r ==> x in records || x == TokenRecord(user, token)
    ensures |r| == |records| + (if FindByUser(records, user).Some? then 0 else 1)
    ensures TokenOfUser(r, user) == Some(token)
    ensures forall v :: v != user ==> TokenOfUser(r, v) == TokenOfUser(records, v)
  {
    match FindByUser(records, user)
    case Some(i) =>
      var r := records[i := TokenRecord(user, token)];
      assert forall v :: FindByUser(r, v) == FindByUser(records, v) by {
        forall v ensures FindByUser(r, v) == FindByUser(records, v) {
          Store.FirstIndexSamePattern(r, records, (x: TokenRecord) => x.user == v, (x: TokenRecord) => x.user == v);
        }
      }
      r
    case None =>
      var r := records + [TokenRecord(user, token)];
      forall v | v != user ensures TokenOfUser(r, v) == TokenOfUser(records, v) {
        Store.FirstIndexOfPrefix(records, [TokenRecord(user, token)], (x: TokenRecord) => x.user == v);
      }
      Store.FirstIndexOfPrefix(records, [TokenRecord(user, token)], (x: TokenRecord) => x.user == user);
      r
  }

  /**
   * After `saveToken(user, token)`, `findToken(token)` finds the user's
   * record, provided no other user's record already held that token.
   */
  lemma {:induction false} SavedTokenIsFound(records: seq<TokenRecord>, user: UserId, token: string)
    requires OnePerUser(records)
    requires forall j :: 0 <= j < |records| && records[j].user != user ==> records[j].refreshToken != token
    ensures var r := Upsert(records, user, token);
      FindByToken(r, token).Some? && r[FindByToken(r, token).value] == TokenRecord(user, token)
  {
    var r := Upsert(records, user, token);
    var i := FindByUser(r, user).value;
    assert r[i] == TokenRecord(user, token);
    var k := FindByToken(r, token).value;
    assert r[k].user == user;
  }

  /**
   * After `saveToken(user, token)` the user's previous token, if it was
   * different and held by no other record, is no longer found: it has
   * been overwritten, not kept beside the new one.
   */
  lemma {:induction false} SupersededTokenIsGone(records: seq<TokenRecord>, user: UserId, token: string)
    requires OnePerUser(records) && DistinctTokens(records)
    requires TokenOfUser(records, user).Some? && TokenOfUser(records, user).value != token
    ensures FindByToken(Upsert(records, user, token), TokenOfUser(records, user).value).None?
  {
    var prev := TokenOfUser(records, user).value;
    var i := FindByUser(records, user).value;
    var r := Upsert(records, user, token);
    assert r == records[i := TokenRecord(user, token)];
    forall j | 0 <= j < |r| ensures r[j].refreshToken != prev {
      if j != i {
        assert records[j].refreshToken != records[i].refreshToken;
      }
    }
  }

  /** Deleting position `i` keeps every other record, in order. */
  function RemoveAt(records: seq<TokenRecord>, i: nat): (r: seq<TokenRecord>)
    requires i < |records|
    ensures |r| == |records| - 1
    ensures forall j :: 0 <= j < i ==> r[j] == records[j]
    ensures forall j :: i <= j < |r| ==> r[j] == records[j + 1]
  {
    records[..i] + records[i + 1..]
  }

  lemma {:induction false} RemoveAtKeepsOthers(records: seq<TokenRecord>, i: nat, x: TokenRecord)
    requires i < |records| && x in records && x != records[i]
    ensures x in RemoveAt(records, i)
  {
    var r := RemoveAt(records, i);
    var k :| 0 <= k < |records| && records[k] == x;
    if k < i { assert r[k] == x; } else { assert r[k - 1] == x; }
  }

  lemma {:induction false} RemoveAtOnlyRemoves(records: seq<TokenRecord>, i: nat, x: TokenRecord)
    requires i < |records| && x in RemoveAt(records, i)
    ensures x in records
  {
    var r := RemoveAt(records, i);
    var k :| 0 <= k < |r| && r[k] == x;
    if k < i { assert records[k] == x; } else { assert records[k + 1] == x; }
  }

  /** `deleteOne({ refreshToken })`: the first record holding the token goes, nothing else changes. */
  function RemoveFirst(records: seq<TokenRecord>, token: string): (r: seq<TokenRecord>)
    ensures FindByToken(records, token).None? ==> r == records
    ensures FindByToken(records, token).Some? ==> |r| == |records| - 1
    ensures forall x :: x in r ==> x in records
    ensures forall x :: x in records && x.refreshToken != token ==> x in r
    ensures OnePerUser(records) ==> OnePerUser(r)
    ensures DistinctTokens(records) ==> DistinctTokens(r) && FindByToken(r, token).None?
  {
    match FindByToken(records, token)
    case None => records
    case Some(i) =>
      var r := RemoveAt(records, i);
      forall x | x in records && x.refreshToken != token ensures x in r {
        RemoveAtKeepsOthers(records, i, x);
      }
      forall x | x in r ensures x in records {
        RemoveAtOnlyRemoves(records, i, x);
      }
      RemoveAtPreservesUniqueness(records, i, token);
      r
  }

  lemma {:induction false} RemoveAtPreservesUniqueness(records: seq<TokenRecord>, i: nat, token: string)
    requires i < |records| && records[i].refreshToken == token
    ensures OnePerUser(records) ==> OnePerUser(RemoveAt(records, i))
    ensures DistinctTokens(records) ==> DistinctTokens(RemoveAt(records, i))
    ensures DistinctTokens(records) ==> FindByToken(RemoveAt(records, i), token).None?
  {
    var r := RemoveAt(records, i);
    // position of r[j] in records
    assert forall j :: 0 <= j < |r| ==> r[j] == records[if j < i then j else j + 1];
  }

  /** The record holds a refresh token signed for claims about the record's own user. */
  ghost predicate IssuedFor(s: Signer, refreshSecret: string, rec: TokenRecord)
  {
    exists c: Claims :: c.user.id == rec.user && s.sign(c, refreshSecret, RefreshLifetime) == rec.refreshToken
  }

  /**
   * When every record holds a token signed for its own user, records of
   * different users hold different tokens: with one record per user, no
   * two records share a token.
   */
  lemma IssuedTokensDistinct(s: Signer, refreshSecret: string, records: seq<TokenRecord>)
    requires Sound(s) && OnePerUser(records)
    requires forall x :: x in records ==> IssuedFor(s, refreshSecret, x)
    ensures DistinctTokens(records)
  {
    forall i, j | 0 <= i < |records| && 0 <= j < |records| && i != j
      ensures records[i].refreshToken != records[j].refreshToken
    {
      assert IssuedFor(s, refreshSecret, records[i]) && IssuedFor(s, refreshSecret, records[j]);
      var ci: Claims :| ci.user.id == records[i].user && s.sign(ci, refreshSecret, RefreshLifetime) == records[i].refreshToken;
      var cj: Claims :| cj.user.id == records[j].user && s.sign(cj, refreshSecret, RefreshLifetime) == records[j].refreshToken;
      SignedTokensDiffer(s, ci, refreshSecret, RefreshLifetime, cj, refreshSecret, RefreshLifetime);
    }
  }

  /** The refresh-token collection, updated in place. */
  class TokenStore {
    var records: seq<TokenRecord>

    ghost predicate Valid()
      reads this
    {
      OnePerUser(records)
    }

    constructor ()
      ensures Valid() && records == []
    {
      records := [];
    }

    /** `saveToken(userId, refreshToken)`; returns the saved record. */
    method SaveToken(user: UserId, token: string) returns (saved: TokenRecord)
      requires Valid()
      modifies this
      ensures Valid()
      ensures records == Upsert(old(records), user, token)
      ensures saved == TokenRecord(user, token)
    {
      var found := FindByUser(records, user);
      if found.Some? {
        records := records[found.value := TokenRecord(user, token)];
      } else {
        records := records + [TokenRecord(user, token)];
      }
      saved := TokenRecord(user, token);
    }

    /** `removeToken(refreshToken)`. */
    method RemoveToken(token: string)
      requires Valid()
      modifies this
      ensures Valid()
      ensures records == RemoveFirst(old(records), token)
    {
      var found := FindByToken(records, token);
      if found.Some? {
        records := RemoveAt(records, found.value);
      }
    }

    /** `findToken(refreshToken)`: some record holds exactly `token` iff a record is returned. */
    function FindToken(token: string): (r: Option<TokenRecord>)
      reads this
      ensures r.Some? <==> exists j :: 0 <= j < |records| && records[j].refreshToken == token
      ensures r.Some? ==> r.value in records && r.value.refreshToken == token
    {
      match FindByToken(records, token)
      case Some(i) => Some(records[i])
      case None => None
    }
  }
}

=== FILE: user_dto.dfy ===
/**
 * `UserDto`: the public view of a user record, returned to clients and
 * signed into tokens. It has no password, activation link, reset code or
 * activation flag.
 */
module UserDtos {
  import opened Wrappers
  import opened Globals
  import opened UserModel
  import opened ImageService

  datatype UserDto = UserDto(
    id: UserId,
    email: string,
    name: string,
    surname: string,
    isAdmin: bool,
    phoneNumber: string,
    profile: Profile,
    avatar: Option<ImageRef>,
    createdAt: string)

  /** `new UserDto(model)`; `apiUrl` is `API_URL`, used for the avatar URL. */
  function Project(apiUrl: string, u: UserRecord): (d: UserDto)
    ensures d.id == u.id && d.email == u.email && d.name == u.name && d.surname == u.surname
    ensures d.isAdmin == u.isAdmin && d.phoneNumber == u.phoneNumber
    ensures d.profile == u.profile && d.createdAt == u.createdAt
    ensures u.avatar.None? ==> d.avatar.None?
    ensures u.avatar.Some? ==> d.avatar == Some(Single(FileUrl(apiUrl, Avatars, u.avatar.value)))
  {
    UserDto(
      u.id, u.email, u.name, u.surname, u.isAdmin, u.phoneNumber, u.profile,
      if u.avatar.None? then None else Some(GetImageUrl(apiUrl, Single(u.avatar.value), Avatars)),
      u.createdAt)
  }

  /**
   * The projection does not depend on the secret fields: records that
   * differ only in password hash, activation link, reset code or
   * activation flag look the same from outside.
   */
  lemma ProjectionHidesSecrets(apiUrl: string, u: UserRecord, password: string, link: Option<string>,
                               code: Option<nat>, activated: bool)
    ensures Project(apiUrl, u.(password := password, activationLink := link, resetCode := code,
                               isActivated := activated)) == Project(apiUrl, u)
  {
  }

  /** Every public field, including the avatar file name, can be read back from the projection. */
  lemma {:induction false} ProjectionKeepsPublicFields(apiUrl: string, u: UserRecord, v: UserRecord)
    requires Project(apiUrl, u) == Project(apiUrl, v)
    ensures u.id == v.id && u.email == v.email && u.avatar == v.avatar && u.profile == v.profile
  {
    if u.avatar.Some? && v.avatar.Some? {
      FileUrlInjective(apiUrl, Avatars, u.avatar.value, v.avatar.value);
    }
  }
}

=== FILE: user_model.dfy ===
/**
 * The `User` schema: the record kept for every account, the defaults a new
 * record receives, the required fields, the enumerated profile values and
 * the store-wide constraints (email unique; email and createdAt immutable).
 */
module UserModel {
  import opened Wrappers
  import Store

  /** The store's `_id`. */
  type UserId = nat

  /** The optional profile fields; each defaults to null. */
  datatype Profile = Profile(
    education: Option<string>,
    specialty: Option<string>,
    yearOfRelease: Option<int>,
    place: Option<string>,
    workPlace: Option<string>,
    positionAtWork: Option<string>,
    shortBiography: Option<string>,
    educationAndGoals: Option<string>)

  datatype UserRecord = UserRecord(
    id: UserId,
    email: string,
    /** The bcrypt hash, never the plaintext. */
    password: string,
    name: string,
    surname: string,
    isActivated: bool,
    isAdmin: bool,
    activationLink: Option<string>,
    resetCode: Option<nat>,
    phoneNumber: string,
    profile: Profile,
    avatar: Option<string>,
    createdAt: string)

  /** The values the `education` enum admits besides null. */
  const EducationValues: set<string> :=
    {"Среднее-Профессиональное", "Бакалавриат", "Магистратура", "Докторантура", "Аспирантура"}

  /** The values the `specialty` enum admits besides null. */
  const SpecialtyValues: set<string> := {"Программист", "Врач", "Психолог", "Переводчик"}

  function EmptyProfile(): (p: Profile)
    ensures p.education.None? && p.specialty.None? && p.yearOfRelease.None?
    ensures p.place.None? && p.workPlace.None? && p.positionAtWork.None?
    ensures p.shortBiography.None? && p.educationAndGoals.None?
  {
    Profile(None, None, None, None, None, None, None, None)
  }

  /** The enum constraints on the profile. */
  predicate ProfileAllowed(p: Profile)
  {
    && (p.education.None? || p.education.value in EducationValues)
    && (p.specialty.None? || p.specialty.value in SpecialtyValues)
  }

  /**
   * The `required: true` fields. The store refuses a missing value and,
   * for strings, the empty string.
   */
  predicate RequiredPresent(u: UserRecord)
  {
    u.email != "" && u.password != "" && u.name != "" && u.surname != "" && u.phoneNumber != ""
  }

  /**
   * How the `createdAt` default is evaluated. As written,
   * `default: new Date().toISOString()` is a value computed once, when the
   * schema is built, so it is the schema's load time (`AtSchemaLoad`). The
   * evidently intended default is computed for every new record
   * (`PerRecord`), as a function default would be.
   */
  datatype CreatedAtDefault = AtSchemaLoad(loadTime: string) | PerRecord

  /** The `createdAt` of a record created when the clock reads `clock`. */
  function CreatedAtStamp(d: CreatedAtDefault, clock: string): string
  {
    match d
    case AtSchemaLoad(loadTime) => loadTime
    case PerRecord => clock
  }

  /**
   * `UserModel.create({email, password, activationLink, name, surname,
   * phoneNumber})` with every schema default applied.
   */
  function NewUser(id: UserId, email: string, passwordHash: string, activationLink: string,
                   name: string, surname: string, phoneNumber: string, createdAt: string): (u: UserRecord)
    ensures u.id == id && u.email == email && u.password == passwordHash
    ensures u.name == name && u.surname == surname && u.phoneNumber == phoneNumber
    ensures u.activationLink == Some(activationLink) && u.createdAt == createdAt
    ensures !u.isActivated && !u.isAdmin && u.resetCode.None? && u.avatar.None?
    ensures u.profile == EmptyProfile() && ProfileAllowed(u.profile)
  {
    UserRecord(id, email, passwordHash, name, surname, false, false, Some(activationLink), None,
               phoneNumber, EmptyProfile(), None, createdAt)
  }

  /**
   * A new record passes the `required` validators exactly when the caller
   * supplied a non-empty email, password hash, name, surname and phone
   * number; the defaults never make a record fail.
   */
  lemma NewUserPassesSchema(id: UserId, email: string, passwordHash: string, activationLink: string,
                            name: string, surname: string, phoneNumber: string, createdAt: string)
    ensures RequiredPresent(NewUser(id, email, passwordHash, activationLink, name, surname, phoneNumber, createdAt))
            <==> email != "" && passwordHash != "" && name != "" && surname != "" && phoneNumber != ""
  {
  }

  /** `unique: true` on email. */
  ghost predicate UniqueEmails(users: seq<UserRecord>)
  {
    forall i, j :: 0 <= i < |users| && 0 <= j < |users| && i != j ==> users[i].email != users[j].email
  }

  ghost predicate UniqueIds(users: seq<UserRecord>)
  {
    forall i, j :: 0 <= i < |users| && 0 <= j < |users| && i != j ==> users[i].id != users[j].id
  }

  /**
   * How a later state of the collection relates to an earlier one: no
   * record is removed or reordered, and `id`, `email` (immutable) and
   * `createdAt` (immutable) never change.
   */
  ghost predicate Evolves(before: seq<UserRecord>, after: seq<UserRecord>)
  {
    && |before| <= |after|
    && forall i :: 0 <= i < |before| ==>
         after[i].id == before[i].id && after[i].email == before[i].email
         && after[i].createdAt == before[i].createdAt
  }

  /** `findOne({ email })`. */
  function FindByEmail(users: seq<UserRecord>, email: string): (r: Option<nat>)
    ensures r.Some? ==> r.value < |users| && users[r.value].email == email
    ensures r.None? <==> forall j :: 0 <= j < |users| ==> users[j].email != email
  {
    Store.FirstIndex(users, (u: UserRecord) => u.email == email)
  }

  /** `findOne({ activationLink })`: the first record holding that link. */
  function FindByLink(users: seq<UserRecord>, link: string): (r: Option<nat>)
    ensures r.Some? ==> r.value < |users| && users[r.value].activationLink == Some(link)
    ensures r.Some? ==> forall j :: 0 <= j < r.value ==> users[j].activationLink != Some(link)
    ensures r.None? <==> forall j :: 0 <= j < |users| ==> users[j].activationLink != Some(link)
  {
    Store.FirstIndex(users, (u: UserRecord) => u.activationLink == Some(link))
  }

  /** `findById(id)`. */
  function FindById(users: seq<UserRecord>, id: UserId): (r: Option<nat>)
    ensures r.Some? ==> r.value < |users| && users[r.value].id == id
    ensures r.None? <==> forall j :: 0 <= j < |users| ==> users[j].id != id
  {
    Store.FirstIndex(users, (u: UserRecord) => u.id == id)
  }

  /** With unique emails, looking a record up by its own email finds that very record. */
  lemma FindByEmailFindsOwner(users: seq<UserRecord>, i: nat)
    requires UniqueEmails(users) && i < |users|
    ensures FindByEmail(users, users[i].email) == Some(i)
  {
    var r := FindByEmail(users, users[i].email);
    assert r.Some?;
  }

  /** Evolution is transitive, so it holds across any run of operations. */
  lemma EvolvesTransitive(a: seq<UserRecord>, b: seq<UserRecord>, c: seq<UserRecord>)
    requires Evolves(a, b) && Evolves(b, c)
    ensures Evolves(a, c)
  {
  }
}

=== FILE: words.dfy ===
/**
 * JavaScript's `String.prototype.split` with a one-character separator and
 * `Array.prototype.join`, the two string operations the middlewares and the
 * upload helper rely on.
 */
module Words {

  /** Number of occurrences of `c` in `s`. */
  function Count(s: string, c: char): (n: nat)
    ensures n <= |s|
    ensures n == 0 <==> c !in s
  {
    if s == [] then 0 else (if s[0] == c then 1 else 0) + Count(s[1..], c)
  }

  /** `s` with every occurrence of `c` taken out, order kept. */
  function Remove(s: string, c: char): (r: string)
    ensures c !in r
    ensures |r| == |s| - Count(s, c)
    ensures forall x :: x != c ==> (x in r <==> x in s)
  {
    if s == [] then "" else (if s[0] == c then "" else [s[0]]) + Remove(s[1..], c)
  }

  /**
   * `s.split(sep)`: the maximal separator-free pieces between separators,
   * including the empty ones at either end or between two adjacent
   * separators, so there is always one more piece than separators.
   */
  function Split(s: string, sep: char): (parts: seq<string>)
    ensures |parts| == Count(s, sep) + 1
    ensures forall i :: 0 <= i < |parts| ==> sep !in parts[i]
  {
    if s == [] then [""]
    else
      var rest := Split(s[1..], sep);
      if s[0] == sep then [""] + rest else [[s[0]] + rest[0]] + rest[1..]
  }

  /** `parts.join(glue)`. */
  function Join(parts: seq<string>, glue: string): string
  {
    if |parts| == 0 then ""
    else if |parts| == 1 then parts[0]
    else parts[0] + glue + Join(parts[1..], glue)
  }

  /** Gluing a prefix onto the first piece is the same as gluing it onto the result. */
  lemma {:induction false} JoinPrefixFirst(a: string, b: string, t: seq<string>, glue: string)
    ensures Join([a + b] + t, glue) == a + Join([b] + t, glue)
  {
    if |t| > 0 {
      assert ([a + b] + t)[1..] == t;
      assert ([b] + t)[1..] == t;
    }
  }

  /** Joining the pieces again with the separator gives back the original string. */
  lemma {:induction false} JoinSplit(s: string, sep: char)
    ensures Join(Split(s, sep), [sep]) == s
  {
    if s != [] {
      var rest := Split(s[1..], sep);
      JoinSplit(s[1..], sep);
      if s[0] == sep {
        assert ([""] + rest)[1..] == rest;
      } else {
        assert rest == [rest[0]] + rest[1..];
        JoinPrefixFirst([s[0]], rest[0], rest[1..], [sep]);
      }
    }
  }

  /** Joining the pieces with nothing between them deletes every separator. */
  lemma {:induction false} JoinSplitEmpty(s: string, sep: char)
    ensures Join(Split(s, sep), "") == Remove(s, sep)
  {
    if s != [] {
      var rest := Split(s[1..], sep);
      JoinSplitEmpty(s[1..], sep);
      if s[0] == sep {
        assert ([""] + rest)[1..] == rest;
      } else {
        assert rest == [rest[0]] + rest[1..];
        JoinPrefixFirst([s[0]], rest[0], rest[1..], "");
      }
    }
  }

  /** A separator-free word followed by the separator splits off as the first piece. */
  lemma {:induction false} SplitAfterWord(w: string, sep: char, t: string)
    requires sep !in w
    ensures Split(w + [sep] + t, sep) == [w] + Split(t, sep)
  {
    if w == [] {
      assert w + [sep] + t == [sep] + t;
      assert ([sep] + t)[1..] == t;
    } else {
      assert (w + [sep] + t)[1..] == w[1..] + [sep] + t;
      SplitAfterWord(w[1..], sep, t);
      assert [w[0]] + w[1..] == w;
    }
  }

  /** A separator-free word at the end, or before a separator, is the first piece. */
  lemma {:induction false} SplitFirstPiece(w: string, sep: char, t: string)
    requires sep !in w
    requires t == [] || t[0] == sep
    ensures Split(w + t, sep)[0] == w
  {
    if w == [] {
      assert w + t == t;
    } else {
      assert (w + t)[1..] == w[1..] + t;
      SplitFirstPiece(w[1..], sep, t);
      assert [w[0]] + w[1..] == w;
    }
  }
}

=== FILE: wrappers.dfy ===
/** Shared value wrappers. */
module Wrappers {

  /** JavaScript `null`/`undefined` versus a present value. */
  datatype Option<+T> = None | Some(value: T)
}
